=== FILE: README.md ===
# DB-Browser access layer in Dafny

DB-Browser is a desktop browser for several database backends: SQLite, dBase, Microsoft Access, MySQL, PostgreSQL, and its own JSON-based "MVO" format. This project models the pure core of its access layer and proves properties of that model. The core has three parts:

- **The embedded MVO engine** (`mvo_db.py`).
  - A connection loads a whole document of tables and caches one cursor. `close` clears both.
  - The cursor accepts a single query shape, `select * from <table>`, in any letter case.
  - The table name is trimmed of quotes and spaces, then looked up exactly.
  - The cursor serves the selected rows through `fetchall` and `fetchone`.
- **The handler layer** (`database_handlers.py`).
  - The factory `get_database_handler` picks a backend from the file extension, or else from the `type` field of a connection record.
  - `connect` validates before it connects, and the MySQL handler requires four parameters.
  - The MVO handler lists its tables, returns the first table's records, and plans a CSV export.
  - The dBase handler derives its table name from the file name.
  - The Access handler builds a default query and turns driver rows into records.
- **The MySQL plugin** (`plugins/database_handlers/mysql_plugin.py`).
  - It parses a `key=value;...` connection string and fills in defaults.
  - Without a connection, its operations return `[]` or `None`.
  - It classifies a query as row-returning (`SELECT`/`SHOW`) or as a statement to commit.

Each Dafny file holds one module:

| file | module | role |
|---|---|---|
| `wrappers.dfy` | `Wrappers` | `Option`, `Result`, `Outcome` |
| `text.dfy` | `Text` | the Python `str` operations the code uses: `lower`/`upper`, `startswith`/`endswith`, `strip`, `split`, `split(sep, 1)` |
| `dicts.dfy` | `Dicts` | `dict` with string keys: a list of pairs in insertion order, each key once, `d[k] = v` keeping an existing key's position |
| `values.dfy` | `Values` | scalar cell values and records |
| `paths.dfy` | `Paths` | POSIX `os.path.basename` and `os.path.splitext` |
| `mvo_db.dfy` | `MvoDb` | `MVOConnection` and `MVOCursor` |
| `handler_factory.dfy` | `HandlerFactory` | `get_database_handler` |
| `handlers.dfy` | `Handlers` | `connect` ordering, MySQL validation, MVO, dBase and Access handler logic |
| `mysql_plugin.dfy` | `MySqlPlugin` | `MySQLPlugin` |

Objects with state become immutable records. Each operation is a function from the old state to the new state and the call's result or raised error (`Step`, `Result`, `Outcome`).

Drivers, file reading and JSON decoding are calls the model cannot see, so they are parameters:
- a `LoadOutcome` stands for what reading and decoding the file produced;
- an `Outcome` stands for how a connection step ended;
- function-typed arguments stand for the MySQL driver (`ConnectArgs -> Option<C>`, `SHOW TABLES`, statement execution) and the Access driver (`string -> DriverResult`).

Some behaviour of the code worth knowing, modelled as written:
- `fetchall` returns the table's whole row list, whatever the read position (mvo_db.py:70-74).
- A table name with a quote on one side only is stripped like any other padding (mvo_db.py:56).
- The cursor's rows are the value lists stored under `"rows"` (mvo_db.py:61).
- The MVO handler reads each table as a list of dict records (database_handlers.py:161, 171), while the cursor reads a `{"columns", "rows"}` table object. Each reading is modelled as written: `MvoDb.Document` for the cursor, `Handlers.RecordTables` for the handler.

## Model

| member | source | states |
|---|---|---|
| MvoDb.Load | mvo_db.py:16-24 | the file loads exactly when it decodes; a JSON decoding failure is "invalid format", an I/O failure carries its reason, and any other exception escapes unchanged |
| MvoDb.Open | mvo_db.py:11-24 | a new connection holds the loaded document and no cursor; a load error is the constructor's error |
| MvoDb.Describe | mvo_db.py:63-65 | one description entry per column, in schema order, named after the column |
| MvoDb.NewCursor | mvo_db.py:43-48 | a fresh cursor reads the given data, is consistent, and both `fetchall` and `fetchone` fail on it until a query has run |
| MvoDb.NewCursorConsistent | mvo_db.py:43-48 | a fresh cursor has nothing selected, no description and read position 0 |
| MvoDb.TableNameOf | mvo_db.py:56 | the name is the text after the 14-character prefix minus removable padding of quotes and spaces, and neither starts nor ends with one |
| MvoDb.Execute | mvo_db.py:50-68 | a query not starting with the lower-case prefix is rejected; an unknown table is "not found"; every failure leaves the cursor unchanged; success selects the table's rows, describes its columns in order even when there are no rows, rewinds to 0, and keeps the cursor consistent |
| MvoDb.IsSelectAll | mvo_db.py:53 | a query is accepted exactly when it has at least 14 characters and each of the first 14 lower-cases to the matching character of `select * from ` |
| MvoDb.IsSelectAllIgnoresCase | mvo_db.py:53 | whether a query is accepted does not depend on its letter case |
| MvoDb.LeadingSpaceRejected | mvo_db.py:53-54 | a query that starts with whitespace is never accepted |
| MvoDb.TableNameRoundTrip | mvo_db.py:53-56 | any letter case of the prefix, any run of quotes and spaces on either side, and a name that neither starts nor ends with one: the query is accepted and names exactly that table, inner characters included |
| MvoDb.UnbalancedQuoteStripped | mvo_db.py:56 | a quote on one side only still yields the bare name |
| MvoDb.MissingTableKeepsSelection | mvo_db.py:57-60 | a lookup miss raises "not found" before any field changes, so a previous selection and its read position survive |
| MvoDb.FetchAll | mvo_db.py:70-74 | before any query, an error; afterwards the whole row list, whatever the read position, with the cursor unchanged |
| MvoDb.FetchOne | mvo_db.py:76-86 | before any query, an error; within the rows, the row at the read position and the position plus one; past the end, `None` with nothing moved; the cursor stays consistent |
| MvoDb.FetchOneTimesReadsInOrder | mvo_db.py:76-86 | `n` calls from position `k` that stay within the rows return rows `k` to `k+n-1` in order and end at `k+n` |
| MvoDb.DrainFromStart | mvo_db.py:67-86 | from position 0, one `fetchone` per row gives exactly the `fetchall` rows in order, and the next call returns `None` |
| MvoDb.FetchOneMatchesFetchAll | mvo_db.py:50-86 | right after a successful `execute`, draining with `fetchone` agrees with `fetchall` and then returns `None` |
| MvoDb.GetCursor | mvo_db.py:26-30 | when no cursor is cached, a new cursor over the current data is created and cached; when one is cached, it is returned and the connection is unchanged |
| MvoDb.CursorExecute | mvo_db.py:26-68 | running a query on the connection's cursor stores the updated cursor in the connection; success leaves a selection read from position 0; a failure changes nothing beyond creating the cursor; a consistent connection stays consistent |
| MvoDb.CursorFetchAll | mvo_db.py:26-74 | `fetchall` on the connection's cursor returns the rows that cursor selected, or fails when it selected none |
| MvoDb.CursorFetchOne | mvo_db.py:26-86 | `fetchone` on the connection's cursor returns the row at the cached read position and stores the position plus one in the connection; past the end it returns `None`, before any query it fails, and in both cases only the cursor's creation is stored; a consistent connection stays consistent |
| MvoDb.CursorFetchOneTimesReadsInOrder | mvo_db.py:26-86 | `n` `fetchone` calls through the connection that stay within the rows return them in order from the cached position and leave the cached position `n` further on |
| MvoDb.ExecuteThenDrain | mvo_db.py:26-86 | after a successful `execute` through the connection, one `fetchone` per row of the selected table returns those rows in order, and the next call returns `None` |
| MvoDb.ExecuteSeenByNextCursor | mvo_db.py:26-86 | after a successful `select * from t` through one `cursor()` call, the next `cursor()` has `t` selected, `fetchall` returns `t`'s rows and `fetchone` its first row |
| MvoDb.GetCursorStable | mvo_db.py:26-30 | asking for the cursor twice gives the same cursor and connection as asking once |
| MvoDb.Close | mvo_db.py:32-35 | afterwards neither data nor a cursor is held |
| MvoDb.CloseIdempotent | mvo_db.py:32-35 | closing twice is the same as closing once |
| MvoDb.GetTables | mvo_db.py:37-39 | every table name once, in file order, and exactly the names the lookup finds; an error once closed |
| MvoDb.OpenedTablesListed | mvo_db.py:11-39 | after a successful load, `get_tables` lists exactly the document's tables |
| HandlerFactory.KindForPath | database_handlers.py:332-343 | the path tests select only file backends, and select none exactly when no extension of the table ends the path |
| HandlerFactory.KindForParams | database_handlers.py:346-353 | the record's `type` selects MySQL exactly when it lower-cases to `mysql` and PostgreSQL exactly when it lower-cases to `postgresql`, never a file backend |
| HandlerFactory.GetDatabaseHandler | database_handlers.py:319-356 | a file backend comes only from a non-empty path with a matching extension; a network backend only from a non-empty record's `type` field when the path selected nothing; failure exactly when neither selects a backend, never a missing handler |
| HandlerFactory.ExtensionsExclusive | database_handlers.py:332-341 | no path ends with two different extensions of the table, so the order of the tests never decides between candidates |
| HandlerFactory.KindForPathHasEntry | database_handlers.py:330-343 | a backend chosen by the path corresponds to a matching extension entry for it |
| HandlerFactory.EntrySelectsKind | database_handlers.py:330-343 | a matching extension entry is the backend the tests select |
| HandlerFactory.KindForPathMatchesTable | database_handlers.py:330-343 | the path picks backend `k` exactly when it ends with an extension that `.db`→SQLite, `.dbf`/`.db3`→dBase, `.mdb`/`.accdb`→Access, `.mvo`→MVO maps to `k` |
| HandlerFactory.PathTakesPrecedence | database_handlers.py:330-343 | a recognised extension wins whatever connection record comes with it |
| HandlerFactory.UnmatchedPathFallsThrough | database_handlers.py:330-346 | a path with an unknown extension is treated as if no path had been given |
| HandlerFactory.TypeFieldIgnoresCase | database_handlers.py:346-353 | the `type` field is compared after lower-casing, so its letter case does not matter |
| HandlerFactory.UpperCaseExtensionUnsupported | database_handlers.py:330-356 | the path `data.DB` matches no extension test, and with no connection record the factory fails with the unsupported-database error |
| Handlers.FirstMissingIndex | database_handlers.py:95-98 | every required key before the index is present, and the key at the index, if any, is absent |
| Handlers.ValidateMySqlParams | database_handlers.py:94-98 | passes exactly when host, user, password and database are all present; otherwise names the first missing one in that order |
| Handlers.MissingDatabaseNamed | database_handlers.py:94-98 | with host, user and password present but no database, the error names `database` |
| Handlers.Connect | database_handlers.py:27-34 | for the backends using the base `connect`, the connection step runs exactly when validation passes, and a validation error is the call's error; the others connect directly |
| Handlers.MySqlValidationBlocksConnection | database_handlers.py:27-30 | a MySQL record missing a required key never reaches the driver, and the error is a missing-parameter error |
| Handlers.MvoConnect | database_handlers.py:145-149 | a successful load gives the handler the document; a failed load keeps the handler as it was, wrapping an `MVOError` as an MVO connection error and passing any other exception through unwrapped |
| Handlers.MvoGetTables | database_handlers.py:151-152 | the table names in document order while data is held; otherwise not connected |
| Handlers.MvoExecuteQuery | database_handlers.py:154-161 | no tables gives `[]`; otherwise the records of the first table in `get_tables` order |
| Handlers.MvoExecuteQueryIgnoresQuery | database_handlers.py:154-161 | the query argument never changes the result |
| Handlers.Project | database_handlers.py:177 | one value per header: the record's value under that header, `''` when the key is missing |
| Handlers.MvoExportToCsv | database_handlers.py:163-177 | unknown table fails; an empty table writes nothing; otherwise the header is the first record's keys, and there is one line per record, as long as the header, holding the record's value under each header or `''` |
| Handlers.MvoClose | database_handlers.py:179-181 | afterwards no data is held; a handler that never connected is unchanged, any other is closed |
| Handlers.MvoCloseIdempotent | database_handlers.py:179-181 | closing twice is the same as closing once |
| Handlers.MvoClosedRejectsOperations | database_handlers.py:151-181 | after close, listing, querying and exporting all fail |
| Handlers.ZipRow | database_handlers.py:217 | a zipped row has at most one entry per column and per value |
| Handlers.ZipRowLookup | database_handlers.py:217 | a column is a key of the zipped row exactly when it is among the first `min(columns, values)` columns, with the value at its last such position |
| Handlers.ZipRows | database_handlers.py:217 | one record per driver row, each the row zipped with the column names |
| Handlers.ZipRowDistinct | database_handlers.py:217 | with distinct column names, a zipped row has the columns in order up to the shorter list, each with its own value |
| Handlers.ProjectZipRoundTrip | database_handlers.py:171-177 | projecting a record onto its own keys and zipping the line back gives the record |
| Handlers.ExportRoundTrip | database_handlers.py:154-177 | when all records share the first record's keys, zipping each exported line with the header gives back the table's records, and for the first table exactly what `execute_query` returns |
| Handlers.DBaseGetTables | database_handlers.py:248-250 | a single name without `/`: the basename up to its last dot when the basename has a dot that is not preceded by dots only, otherwise the whole basename |
| Handlers.DBaseTableNameOfPath | database_handlers.py:250 | the table of `dir/stem.ext` is `stem` |
| Handlers.AccessQueryPlan | database_handlers.py:203-209 | a non-empty query runs as given; an empty one selects `[first table]`, or nothing when there are no tables |
| Handlers.AccessExecuteQuery | database_handlers.py:203-217 | no tables gives `[]`; a driver error is the call's error; otherwise each fetched row is zipped with the column names |
| MySqlPlugin.SegmentPartsClean | plugins/database_handlers/mysql_plugin.py:47-48 | the key of a segment is lower-case and free of `=`, and neither part contains `;` |
| MySqlPlugin.SetKeepsWellFormed | plugins/database_handlers/mysql_plugin.py:48 | storing a clean key and value keeps every stored key lower-case and free of `=` and `;` |
| MySqlPlugin.Accumulate | plugins/database_handlers/mysql_plugin.py:45-48 | when no segment contains `;`, the gathered pairs have lower-case keys without `=` or `;` and values without `;` |
| MySqlPlugin.ParseConnectionString | plugins/database_handlers/mysql_plugin.py:44-48 | every parsed key is lower-case and free of `=` and `;`, and every value free of `;` |
| MySqlPlugin.LastAssignmentAppend | plugins/database_handlers/mysql_plugin.py:45-48 | a further segment assigning the key decides its value; any other segment leaves the value alone |
| MySqlPlugin.LastAssignmentMeaning | plugins/database_handlers/mysql_plugin.py:45-48 | a key has a value exactly when some segment assigns it, and the value is that of the last such segment |
| MySqlPlugin.AccumulateLookup | plugins/database_handlers/mysql_plugin.py:45-48 | a key is found in the gathered pairs exactly when some segment assigns it, and then with the value of the last such segment |
| MySqlPlugin.AccumulateGet | plugins/database_handlers/mysql_plugin.py:44-48 | looking a key up in the gathered pairs gives its last assignment |
| MySqlPlugin.ParseConnectionStringLookup | plugins/database_handlers/mysql_plugin.py:44-48 | a key is found exactly when some `;`-separated segment assigns it, and then with the value of the last one |
| MySqlPlugin.JunkSegmentIgnored | plugins/database_handlers/mysql_plugin.py:45-46 | a segment without `=` changes nothing |
| MySqlPlugin.LaterKeyWins | plugins/database_handlers/mysql_plugin.py:47-48 | a later `key=value` sets the lower-cased key to the value, which may contain `=`, and leaves every other key as it was |
| MySqlPlugin.AccumulateNewPair | plugins/database_handlers/mysql_plugin.py:48 | a segment for a new clean key appends that pair last |
| MySqlPlugin.AccumulateFormatted | plugins/database_handlers/mysql_plugin.py:45-48 | parsing the formatted segments of clean pairs gives back those pairs |
| MySqlPlugin.ParseFormatRoundTrip | plugins/database_handlers/mysql_plugin.py:44-48 | formatting clean pairs as `k=v;...` and parsing the result gives the same pairs in the same order |
| MySqlPlugin.ConnectArgsOf | plugins/database_handlers/mysql_plugin.py:51-56 | host, user and password come from the parsed pairs or default to `localhost`, `root`, `root`; the database is absent unless given |
| MySqlPlugin.ConnectArgsOfString | plugins/database_handlers/mysql_plugin.py:44-56 | each driver argument is the last assignment to its key in the string, or its default |
| MySqlPlugin.DefaultsWithoutAssignments | plugins/database_handlers/mysql_plugin.py:51-56 | a string without any `=` connects to `localhost` as `root`/`root` with no database |
| MySqlPlugin.Connect | plugins/database_handlers/mysql_plugin.py:40-60 | reports success exactly when the driver accepts the parsed arguments, then holds that connection; on failure the plugin is unchanged |
| MySqlPlugin.Disconnect | plugins/database_handlers/mysql_plugin.py:62-66 | afterwards no connection is held; without one nothing changes |
| MySqlPlugin.DisconnectIdempotent | plugins/database_handlers/mysql_plugin.py:62-66 | disconnecting twice is the same as disconnecting once |
| MySqlPlugin.DisconnectedGuards | plugins/database_handlers/mysql_plugin.py:62-88 | after `disconnect`, `get_tables` returns `[]` and `execute_query` returns `None`, whatever the driver would answer |
| MySqlPlugin.GetTables | plugins/database_handlers/mysql_plugin.py:68-81 | `[]` without a connection or when the driver fails; otherwise the driver's table list |
| MySqlPlugin.ExecuteQuery | plugins/database_handlers/mysql_plugin.py:83-100 | `None` without a connection or on a driver error; the rows for a row-returning query; otherwise the row count after a successful commit, `None` if the commit fails |
| MySqlPlugin.ReturnsRows | plugins/database_handlers/mysql_plugin.py:91 | a query returns rows exactly when its whitespace-stripped text begins with six characters upper-casing to `SELECT` or four upper-casing to `SHOW` |
| MySqlPlugin.ReturnsRowsIgnoresPadding | plugins/database_handlers/mysql_plugin.py:91 | surrounding whitespace does not change the classification |
| MySqlPlugin.KeywordEdges | plugins/database_handlers/mysql_plugin.py:91 | a word upper-casing to `SELECT` or `SHOW` starts and ends with a non-space character |
| MySqlPlugin.KeywordReturnsRows | plugins/database_handlers/mysql_plugin.py:91-92 | whitespace, then `SELECT` or `SHOW` in any letter case, then anything: rows are returned |
| MySqlPlugin.NotKeywordStart | plugins/database_handlers/mysql_plugin.py:91 | text whose first character is not `S` starts with neither keyword |
| MySqlPlugin.OtherStatementsCommitted | plugins/database_handlers/mysql_plugin.py:91-95 | a statement whose first non-blank character does not upper-case to `S` (`UPDATE`, `INSERT`, `DELETE`, ...) is committed and reports a row count |
| Text.Strip | mvo_db.py:56 | `str.strip(chars)`: the result is the input minus padding of removable characters on both sides, and neither starts nor ends with one |
| Text.StripSpace | plugins/database_handlers/mysql_plugin.py:91 | `str.strip()`: the input minus whitespace padding on both sides, neither starting nor ending with whitespace |
| Text.StripUnique | mvo_db.py:56 | any such trimming with no removable character at either end is the result of `strip` |
| Text.StripIgnoresPadding | plugins/database_handlers/mysql_plugin.py:91 | adding removable characters at either end does not change what `strip` keeps |
| Text.StripKeepsLeadingWord | plugins/database_handlers/mysql_plugin.py:91 | when the first and `n`-th characters are kept, `strip` keeps the first `n` characters in front |
| Text.StripStartsAt | plugins/database_handlers/mysql_plugin.py:91 | after removable padding, the first kept character starts the stripped text |
| Text.Lower | mvo_db.py:53 | `str.lower` on ASCII: same length, each character lower-cased in place, no capital letter left |
| Text.Upper | plugins/database_handlers/mysql_plugin.py:91 | `str.upper` on ASCII: same length, each character upper-cased in place, no small letter left |
| Text.StartsWith | mvo_db.py:53 | `str.startswith`: true exactly when the text is the prefix followed by something |
| Text.EndsWith | database_handlers.py:332-341 | `str.endswith`: true exactly when the text is something followed by the suffix |
| Text.PrefixChars | plugins/database_handlers/mysql_plugin.py:91 | a prefix test holds exactly when the prefix fits and agrees character by character |
| Text.LowerIdempotent | plugins/database_handlers/mysql_plugin.py:48 | lower-casing twice is lower-casing once |
| Text.LowerKeepsNonLetters | plugins/database_handlers/mysql_plugin.py:48 | a character that is not an ASCII letter occurs in the lower-cased text exactly when it occurs in the original |
| Text.UpperStartsWith | plugins/database_handlers/mysql_plugin.py:91 | upper-casing keeps a prefix a prefix |
| Text.LetterNotSpace | plugins/database_handlers/mysql_plugin.py:91 | a character that upper-cases to an ASCII letter is not whitespace |
| Text.Split | plugins/database_handlers/mysql_plugin.py:45 | `str.split(sep)`: at least one piece, none containing the separator, and joining them with it gives the input |
| Text.SplitJoin | plugins/database_handlers/mysql_plugin.py:45 | splitting pieces free of the separator joined by it gives the pieces back |
| Text.SplitAppend | plugins/database_handlers/mysql_plugin.py:45 | appending `sep + b` with `b` free of the separator appends the piece `b` |
| Text.SplitFirst | plugins/database_handlers/mysql_plugin.py:47 | `str.split(sep, 1)`: the part before the first separator has none, and both parts around it give back the input |
| Text.SplitFirstSeparated | plugins/database_handlers/mysql_plugin.py:47 | `a + sep + b` with `a` free of the separator splits into `a` and `b`, even when `b` holds more separators |
| Dicts.Get | plugins/database_handlers/mysql_plugin.py:52-55 | `dict.get`: `None` exactly for a missing key, otherwise the value stored under it |
| Dicts.Set | plugins/database_handlers/mysql_plugin.py:48 | `d[k] = v`: `k` maps to `v` afterwards, every other key keeps its value, an existing key keeps its position, a new key goes last |
| Dicts.Keys | mvo_db.py:39 | `list(d.keys())`: one key per entry, in insertion order, no key twice |
| Dicts.FromPairs | database_handlers.py:217 | `dict(pairs)` has at most one entry per pair |
| Dicts.FromPairsLookup | database_handlers.py:217 | a key is in `dict(pairs)` exactly when some pair has it, with the value of the last such pair |
| Dicts.FromPairsDistinct | database_handlers.py:217 | building a dict from pairs with distinct keys keeps the pairs as they are |
| Dicts.Zip | database_handlers.py:217 | `zip`: as long as the shorter list, pairing elements position by position |
| Paths.Basename | database_handlers.py:250 | `os.path.basename`: a tail of the path without `/`, either the whole path or preceded by `/` |
| Paths.SplitExt | database_handlers.py:250 | `os.path.splitext`: root and extension give back the name; no extension exactly when there is no dot or only dots come before the last one; an extension is a dot with no further dots |
| Paths.SplitExtRoundTrip | database_handlers.py:250 | `stem.ext` with a dot-free extension and a stem not made of dots splits into `stem` and `.ext` |
| Paths.BasenameOfJoin | database_handlers.py:250 | the basename of `dir/name` is `name` |

## Left out

- Native drivers and their I/O (`sqlite3`, `pyodbc`, `MySQLdb`, `psycopg2`, `mysql.connector`) are foreign calls. The model takes their outcomes as parameters. The SQLite and PostgreSQL handlers consist of driver calls only. Beyond their selection by the factory, the model states only that they, like the dBase handler, override `connect` and skip validation (`Handlers.Connect`).
- `DBaseHandler.connect`, `execute_query` and `export_to_csv` are not modelled. They depend on the `dbf` package, which the module never imports (database_handlers.py:243); only the table-name derivation is modelled.
- File reading and JSON decoding in `_load_mvo_file` are represented only by their outcome: a document, a decoding failure, a read failure, or another exception.
- CSV writing, quoting and encoding through `csv.writer` are not modelled; the model plans the header and lines the writer receives.
- Logging configuration and logger calls are side effects with no effect on results.
- Text.Lower: models `str.lower` for ASCII letters only; Python also maps non-ASCII letters.
- Text.Upper: models `str.upper` for ASCII letters only; Python also maps non-ASCII letters, some to several characters.
- Paths.Basename: POSIX separators only; the Windows `ntpath` rules are not modelled.
- Connection-record values other than strings are not modelled; the factory and the validation only read string fields or test key presence.
- MvoDb.Execute: every table object is assumed to hold both a `columns` and a `rows` list. In the source a table object missing one of them fails with a `KeyError` after the cursor has been partly updated: a missing `rows` after `current_table` is set (mvo_db.py:60-61), a missing `columns` after `current_rows` is replaced, leaving the old description and read position (mvo_db.py:63-66). The model does not represent that partial update.
- HandlerFactory.GetDatabaseHandler: a selected backend is always returned. In the source the factory constructs the handler, and `PostgreSQLHandler.__init__` imports `psycopg2` (database_handlers.py:281-282), so where that package is missing the factory raises `ImportError` for a `postgresql` record (re-raised at database_handlers.py:358-360). The model has no parameter for that import.
- MvoDb.GetCursor: returns the cursor as a value, not as a shared object. The source hands out the cached object itself, so updates made through it reach the connection; the model covers that sharing through `CursorExecute`, `CursorFetchAll` and `CursorFetchOne`, which store the updated cursor back. A cursor value kept by the caller and used directly does not update the connection.
- Values.Value: has no floating-point case. The sample MVO document of the repository stores float salaries (create_sample_mvo.py:9-13), so a model document cannot hold such a cell.
- Unexpected exceptions are collapsed. An MVO handler that never connected, or one whose data was cleared by `close`, fails in the source with an `AttributeError` or `TypeError`; the model reports `NotConnected` (or `NoData` in the engine).
- MySqlPlugin.Disconnect: a failing `close()` is not modelled. In the source an exception from `self.connection.close()` (mysql_plugin.py:65) propagates and leaves `self.connection` set; the model always clears the connection.
- Query parameters (`params`) are passed through to drivers unchanged, so they do not affect any modelled result.
- `MySQLPlugin.initialize`, `shutdown` and `get_metadata` are a driver probe, a driver close and a constant dictionary.
- The plugin manager, the abstract plugin base class, the GUI, the demo script and the sample-data scripts are outside the access layer.

=== FILE: dicts.dfy ===
/** Python's `dict` with string keys, as the access layer uses it: entries in
    insertion order, each key at most once, assignment to an existing key
    replacing its value in place. */
module Dicts {
  import opened Wrappers

  /** No key occurs twice. */
  predicate DistinctKeys<V>(entries: seq<(string, V)>) {
    forall i, j :: 0 <= i < j < |entries| ==> entries[i].0 != entries[j].0
  }

  type Dict<V> = entries: seq<(string, V)> | DistinctKeys(entries) witness []

  /** `list(d.keys())`. */
  function Keys<V>(d: Dict<V>): (ks: seq<string>)
    ensures |ks| == |d|
    ensures forall i :: 0 <= i < |d| ==> ks[i] == d[i].0
    ensures forall i, j :: 0 <= i < j < |ks| ==> ks[i] != ks[j]
  {
    seq(|d|, i requires 0 <= i < |d| => d[i].0)
  }

  /** Position of key `k` in `d`. */
  function KeyIndex<V>(d: Dict<V>, k: string): (i: nat)
    requires k in Keys(d)
    ensures i < |d| && d[i].0 == k
  {
    var ks := Keys(d);
    var i :| 0 <= i < |ks| && ks[i] == k;
    i
  }

  /** `d.get(k)`: the value stored under `k`, or `None` when `k` is not a key. */
  function Get<V>(d: Dict<V>, k: string): (r: Option<V>)
    ensures r.None? <==> k !in Keys(d)
    ensures forall i :: 0 <= i < |d| && d[i].0 == k ==> r == Some(d[i].1)
  {
    if k in Keys(d) then Some(d[KeyIndex(d, k)].1) else None
  }

  /** `d[k] = v`: an existing key keeps its position, a new key goes last. */
  function Set<V>(d: Dict<V>, k: string, v: V): (r: Dict<V>)
    ensures Get(r, k) == Some(v)
    ensures forall k' :: k' != k ==> Get(r, k') == Get(d, k')
    ensures k in Keys(d) ==> Keys(r) == Keys(d)
    ensures k !in Keys(d) ==> r == d + [(k, v)]
  {
    if k in Keys(d) then
      var i := KeyIndex(d, k);
      var r := d[i := (k, v)];
      assert Keys(r) == Keys(d);
      r
    else
      var r := d + [(k, v)];
      assert Keys(r) == Keys(d) + [k];
      r
  }

  /** `dict(pairs)`: the pairs assigned one after another. */
  function FromPairs<V>(pairs: seq<(string, V)>): (r: Dict<V>)
    ensures |r| <= |pairs|
  {
    if pairs == [] then []
    else
      var last := pairs[|pairs| - 1];
      Set(FromPairs(pairs[..|pairs| - 1]), last.0, last.1)
  }

  /** A key is in `dict(pairs)` exactly when some pair has it, and its value
      is the one of the last such pair. */
  lemma {:induction false} FromPairsLookup<V>(pairs: seq<(string, V)>, k: string)
    ensures Get(FromPairs(pairs), k).None? <==> forall i :: 0 <= i < |pairs| ==> pairs[i].0 != k
    ensures forall i :: 0 <= i < |pairs| && pairs[i].0 == k && (forall j :: i < j < |pairs| ==> pairs[j].0 != k) ==>
      Get(FromPairs(pairs), k) == Some(pairs[i].1)
  {
    if pairs != [] {
      var init := pairs[..|pairs| - 1];
      var last := pairs[|pairs| - 1];
      FromPairsLookup(init, k);
      assert forall i :: 0 <= i < |init| ==> init[i] == pairs[i];
    }
  }

  /** Building a dict from pairs with distinct keys keeps every pair, in order. */
  lemma {:induction false} FromPairsDistinct<V>(pairs: seq<(string, V)>)
    requires DistinctKeys(pairs)
    ensures FromPairs(pairs) == pairs
  {
    if pairs != [] {
      var init := pairs[..|pairs| - 1];
      var last := pairs[|pairs| - 1];
      FromPairsDistinct(init);
      assert last.0 !in Keys(init);
      assert init + [last] == pairs;
    }
  }

  /** `zip(keys, values)`: pairs up to the shorter of the two. */
  function Zip<V>(keys: seq<string>, values: seq<V>): (r: seq<(string, V)>)
    ensures |r| == if |keys| <= |values| then |keys| else |values|
    ensures forall i :: 0 <= i < |r| ==> r[i] == (keys[i], values[i])
  {
    var n := if |keys| <= |values| then |keys| else |values|;
    seq(n, i requires 0 <= i < n => (keys[i], values[i]))
  }
}

=== FILE: handler_factory.dfy ===
/** `get_database_handler` (database_handlers.py): picks the backend for a
    file path by its extension, otherwise for a connection record by its
    `type` field, and raises when neither names a supported backend. It only
    selects; connecting is left to the handler. */
module HandlerFactory {
  import opened Wrappers
  import opened Text

  datatype HandlerKind = SQLite | DBase | Access | MVO | MySQL | PostgreSQL

  /** Connection parameters by name; only string values are modelled. */
  type Params = map<string, string>

  /** The two optional arguments of `get_database_handler`. */
  datatype Descriptor = Descriptor(dbPath: Option<string>, connectionParams: Option<Params>)

  /** ValueError "Unsupported database type or insufficient connection information". */
  datatype FactoryError = Unsupported

  /** `if db_path:`, Python truthiness: present and non-empty. */
  predicate HasPath(d: Descriptor) {
    d.dbPath.Some? && d.dbPath.value != ""
  }

  /** `if connection_params:`, Python truthiness: present and non-empty. */
  predicate HasParams(d: Descriptor) {
    d.connectionParams.Some? && d.connectionParams.value != map[]
  }

  /** The extension tests of the path branch, in the order the source makes them. */
  function KindForPath(path: string): (r: Option<HandlerKind>)
    ensures r.Some? ==> IsFileKind(r.value)
    ensures r.None? <==> forall i :: 0 <= i < |ExtensionTable| ==> !MatchesEntry(path, i)
  {
    assert MatchesEntry(path, 0) == EndsWith(path, ".db");
    assert MatchesEntry(path, 1) == EndsWith(path, ".dbf");
    assert MatchesEntry(path, 2) == EndsWith(path, ".db3");
    assert MatchesEntry(path, 3) == EndsWith(path, ".mdb");
    assert MatchesEntry(path, 4) == EndsWith(path, ".accdb");
    assert MatchesEntry(path, 5) == EndsWith(path, ".mvo");
    if EndsWith(path, ".db") then Some(SQLite)
    else if EndsWith(path, ".dbf") || EndsWith(path, ".db3") then Some(DBase)
    else if EndsWith(path, ".mdb") || EndsWith(path, ".accdb") then Some(Access)
    else if EndsWith(path, ".mvo") then Some(MVO)
    else None
  }

  /** `connection_params.get('type', '').lower()`. */
  function TypeField(params: Params): string {
    Lower(if "type" in params then params["type"] else "")
  }

  /** The `type` test of the connection-record branch. */
  function KindForParams(params: Params): (r: Option<HandlerKind>)
    ensures r.Some? ==> !IsFileKind(r.value)
    ensures r == Some(MySQL) <==> TypeField(params) == "mysql"
    ensures r == Some(PostgreSQL) <==> TypeField(params) == "postgresql"
  {
    var t := TypeField(params);
    if t == "mysql" then Some(MySQL)
    else if t == "postgresql" then Some(PostgreSQL)
    else None
  }

  predicate IsFileKind(k: HandlerKind) {
    k == SQLite || k == DBase || k == Access || k == MVO
  }

  /** `get_database_handler(db_path, connection_params)`. A file kind comes
      only from a matching path; a networked kind only from the `type` field,
      and only when the path matched nothing; otherwise the call fails. */
  function GetDatabaseHandler(d: Descriptor): (r: Result<HandlerKind, FactoryError>)
    ensures r.Success? && IsFileKind(r.value) ==>
      HasPath(d) && KindForPath(d.dbPath.value) == Some(r.value)
    ensures r.Success? && !IsFileKind(r.value) ==>
      && !(HasPath(d) && KindForPath(d.dbPath.value).Some?)
      && HasParams(d) && KindForParams(d.connectionParams.value) == Some(r.value)
    ensures r.Failure? <==>
      && !(HasPath(d) && KindForPath(d.dbPath.value).Some?)
      && !(HasParams(d) && KindForParams(d.connectionParams.value).Some?)
  {
    var fromPath := if HasPath(d) then KindForPath(d.dbPath.value) else None;
    if fromPath.Some? then Success(fromPath.value)
    else
      var fromParams := if HasParams(d) then KindForParams(d.connectionParams.value) else None;
      if fromParams.Some? then Success(fromParams.value)
      else Failure(Unsupported)
  }

  /** The extension table as an independent reference: suffix and backend. */
  const ExtensionTable: seq<(string, HandlerKind)> :=
    [(".db", SQLite), (".dbf", DBase), (".db3", DBase),
     (".mdb", Access), (".accdb", Access), (".mvo", MVO)]

  /** Entry `i` of the extension table matches the end of `path`. */
  predicate MatchesEntry(path: string, i: int)
    requires 0 <= i < |ExtensionTable|
  {
    EndsWith(path, ExtensionTable[i].0)
  }

  /** A path that ends with `suffix` agrees with it `k` characters from the end. */
  lemma EndsWithChar(path: string, suffix: string, k: int)
    requires 1 <= k <= |suffix|
    ensures EndsWith(path, suffix) ==> |path| >= k && path[|path| - k] == suffix[|suffix| - k]
  {
    if EndsWith(path, suffix) {
      assert path[|path| - k] == path[|path| - |suffix|..][|suffix| - k];
    }
  }

  /** No path ends with two different extensions of the table, so the order
      of the tests never decides between two candidates. */
  lemma ExtensionsExclusive(path: string, i: int, j: int)
    requires 0 <= i < j < |ExtensionTable|
    ensures !(MatchesEntry(path, i) && MatchesEntry(path, j))
  {
    var a, b := ExtensionTable[i].0, ExtensionTable[j].0;
    EndsWithChar(path, a, 1);
    EndsWithChar(path, b, 1);
    EndsWithChar(path, a, 3);
    EndsWithChar(path, b, 3);
  }

  /** Whatever extension test selects backend `k` corresponds to a table entry for `k`. */
  lemma KindForPathHasEntry(path: string, k: HandlerKind)
    requires KindForPath(path) == Some(k)
    ensures exists i :: 0 <= i < |ExtensionTable| && MatchesEntry(path, i) && ExtensionTable[i].1 == k
  {
    var i := if EndsWith(path, ".db") then 0
      else if EndsWith(path, ".dbf") then 1
      else if EndsWith(path, ".db3") then 2
      else if EndsWith(path, ".mdb") then 3
      else if EndsWith(path, ".accdb") then 4
      else 5;
    assert MatchesEntry(path, i) && ExtensionTable[i].1 == k;
  }

  /** A table entry that matches the path is the one the extension tests select. */
  lemma EntrySelectsKind(path: string, i: int)
    requires 0 <= i < |ExtensionTable| && MatchesEntry(path, i)
    ensures KindForPath(path) == Some(ExtensionTable[i].1)
  {
    forall j | 0 <= j < |ExtensionTable| && j != i
      ensures !MatchesEntry(path, j)
    {
      if i < j { ExtensionsExclusive(path, i, j); } else { ExtensionsExclusive(path, j, i); }
    }
    assert MatchesEntry(path, 0) == EndsWith(path, ".db");
    assert MatchesEntry(path, 1) == EndsWith(path, ".dbf");
    assert MatchesEntry(path, 2) == EndsWith(path, ".db3");
    assert MatchesEntry(path, 3) == EndsWith(path, ".mdb");
    assert MatchesEntry(path, 4) == EndsWith(path, ".accdb");
    assert MatchesEntry(path, 5) == EndsWith(path, ".mvo");
  }

  /** The path branch selects backend `k` exactly when the path ends with an
      extension the table maps to `k`. */
  lemma KindForPathMatchesTable(path: string, k: HandlerKind)
    ensures KindForPath(path) == Some(k) <==>
      exists i :: 0 <= i < |ExtensionTable| && MatchesEntry(path, i) && ExtensionTable[i].1 == k
  {
    if KindForPath(path) == Some(k) {
      KindForPathHasEntry(path, k);
    }
    if exists i :: 0 <= i < |ExtensionTable| && MatchesEntry(path, i) && ExtensionTable[i].1 == k {
      var i :| 0 <= i < |ExtensionTable| && MatchesEntry(path, i) && ExtensionTable[i].1 == k;
      EntrySelectsKind(path, i);
    }
  }

  /** A recognised extension wins whatever connection record comes with it. */
  lemma PathTakesPrecedence(path: string, params: Option<Params>)
    requires path != "" && KindForPath(path).Some?
    ensures GetDatabaseHandler(Descriptor(Some(path), params)) == Success(KindForPath(path).value)
  {
  }

  /** A path with an unrecognised extension is ignored: the call behaves as
      if no path had been given. */
  lemma UnmatchedPathFallsThrough(path: string, params: Option<Params>)
    requires KindForPath(path).None?
    ensures GetDatabaseHandler(Descriptor(Some(path), params)) == GetDatabaseHandler(Descriptor(None, params))
  {
  }

  /** The `type` field is compared without regard to letter case. */
  lemma TypeFieldIgnoresCase(params: Params, t: string)
    requires "type" in params && Lower(params["type"]) == Lower(t)
    ensures KindForParams(params) == KindForParams(params["type" := t])
  {
  }

  /** Extension tests are case-sensitive: an upper-case `.DB` is not SQLite,
      and without a connection record the call fails. */
  lemma UpperCaseExtensionUnsupported()
    ensures KindForPath("data.DB").None?
    ensures GetDatabaseHandler(Descriptor(Some("data.DB"), None)) == Failure(Unsupported)
  {
    assert "data.DB"[4..] != ".db";
    assert "data.DB"[3..] != ".dbf" && "data.DB"[3..] != ".db3";
    assert "data.DB"[3..] != ".mdb" && "data.DB"[1..] != ".accdb";
    assert "data.DB"[3..] != ".mvo";
  }
}

=== FILE: handlers.dfy ===
/** The pure parts of the backend handlers (database_handlers.py): the order
    of validation and connection in `connect`, the MySQL parameter check, the
    MVO handler's table listing, default query and CSV projection over the
    loaded records, the dBase table name and the Access default query with
    its row conversion. Everything a native driver does enters as a value. */
module Handlers {
  import opened Wrappers
  import opened Dicts
  import opened Values
  import opened Paths
  import opened HandlerFactory
  import MvoDb

  datatype HandlerError =
    /** ValueError "Missing required MySQL connection parameter: <name>". */
    | MissingParameter(name: string)
    /** Whatever a native driver raised, with its message. */
    | DriverError(message: string)
    /** ValueError "MVO Connection Error: <cause>". */
    | MvoConnectionError(cause: MvoDb.MvoError)
    /** ValueError "Table <name> not found". */
    | TableNotFound(name: string)
    /** The handler holds no loaded data: the source fails on `None`. */
    | NotConnected
    /** An exception the handler does not catch, propagated as raised. */
    | Uncaught(message: string)

  // ---------------------------------------------------------------------------
  // connect: validation before the connection attempt

  /** The keys `MySQLHandler._validate_connection_params` checks, in order. */
  const MySqlRequired: seq<string> := ["host", "user", "password", "database"]

  /** Index of the first required key absent from `params`, or `|required|`. */
  function FirstMissingIndex(params: Params, required: seq<string>): (i: nat)
    ensures i <= |required|
    ensures forall j :: 0 <= j < i ==> required[j] in params
    ensures i < |required| ==> required[i] !in params
  {
    if required == [] then 0
    else if required[0] !in params then 0
    else 1 + FirstMissingIndex(params, required[1..])
  }

  /** `MySQLHandler._validate_connection_params`: passes exactly when all four
      keys are present, and otherwise names the first one missing. */
  function ValidateMySqlParams(params: Params): (r: Outcome<HandlerError>)
    ensures r.Pass? <==> forall j :: 0 <= j < |MySqlRequired| ==> MySqlRequired[j] in params
    ensures r.Fail? ==> exists i :: (0 <= i < |MySqlRequired|
      && r.error == MissingParameter(MySqlRequired[i])
      && MySqlRequired[i] !in params
      && forall j :: 0 <= j < i ==> MySqlRequired[j] in params)
  {
    var i := FirstMissingIndex(params, MySqlRequired);
    if i == |MySqlRequired| then Pass else Fail(MissingParameter(MySqlRequired[i]))
  }

  /** A record with host, user and password but no database is rejected
      with an error naming `database`. */
  lemma MissingDatabaseNamed(params: Params)
    requires "host" in params && "user" in params && "password" in params
    requires "database" !in params
    ensures ValidateMySqlParams(params) == Fail(MissingParameter("database"))
  {
    assert MySqlRequired[0] == "host" && MySqlRequired[1] == "user";
    assert MySqlRequired[2] == "password" && MySqlRequired[3] == "database";
    assert FirstMissingIndex(params, MySqlRequired) == 3;
  }

  /** The validation step of a backend: MySQL checks its keys, the MVO and
      Access handlers inherit the base class's no-op. */
  function ValidateFor(kind: HandlerKind, params: Params): Outcome<HandlerError> {
    if kind == MySQL then ValidateMySqlParams(params) else Pass
  }

  /** Backends that use `DatabaseHandler.connect`; the others override it
      with a direct driver call and validate nothing. */
  predicate UsesBaseConnect(kind: HandlerKind) {
    kind == MySQL || kind == MVO || kind == Access
  }

  /** What `connect` did: whether the connection step ran, and how the call ended. */
  datatype ConnectReport = ConnectReport(attempted: bool, result: Outcome<HandlerError>)

  /** `connect`, given how the backend's connection step would end. The step
      runs only when validation passes, and its outcome is the call's. */
  function Connect(kind: HandlerKind, params: Params, establish: Outcome<HandlerError>): (r: ConnectReport)
    ensures r.attempted <==> (!UsesBaseConnect(kind) || ValidateFor(kind, params).Pass?)
    ensures r.attempted ==> r.result == establish
    ensures !r.attempted ==> r.result == ValidateFor(kind, params) && r.result.Fail?
  {
    if !UsesBaseConnect(kind) then ConnectReport(true, establish)
    else
      match ValidateFor(kind, params)
      case Fail(e) => ConnectReport(false, Fail(e))
      case Pass => ConnectReport(true, establish)
  }

  /** A MySQL record missing any required key never reaches the driver, and
      the error names the missing key. */
  lemma MySqlValidationBlocksConnection(params: Params, establish: Outcome<HandlerError>, key: string)
    requires key in MySqlRequired && key !in params
    ensures !Connect(MySQL, params, establish).attempted
    ensures Connect(MySQL, params, establish).result.Fail?
    ensures Connect(MySQL, params, establish).result.error.MissingParameter?
  {
  }

  // ---------------------------------------------------------------------------
  // MVOHandler

  /** The loaded document as the MVO handler reads it: each table a list of
      dict records. */
  type RecordTables = Dict<seq<Record>>

  /** The handler's lifecycle: no `mvo_conn` before the first successful
      connect; a held connection whose `data` `close` has set to `None`; or a
      connection holding the loaded records. */
  datatype MvoHandler = NeverConnected | Closed | Connected(data: RecordTables)

  /** `MVOHandler.connect`: the inherited no-op validation, then loading the
      file. A failed load keeps the old state; an `MVOError` is wrapped as an
      MVO connection error, while an exception the loader does not catch
      passes through unwrapped. */
  function MvoConnect(h: MvoHandler, o: MvoDb.LoadOutcome<RecordTables>): (r: (MvoHandler, Outcome<HandlerError>))
    ensures o.Parsed? ==> r == (Connected(o.doc), Pass)
    ensures (o.DecodeFailed? || o.ReadFailed?) ==> r == (h, Fail(MvoConnectionError(MvoDb.Load(o).error)))
    ensures o.Raised? ==> r == (h, Fail(Uncaught(o.message)))
  {
    match MvoDb.Load(o)
    case Success(doc) => (Connected(doc), Pass)
    case Failure(e) =>
      if e.Escaped? then (h, Fail(Uncaught(e.message))) else (h, Fail(MvoConnectionError(e)))
  }

  /** The records the handler currently holds, if any. */
  function MvoData(h: MvoHandler): Result<RecordTables, HandlerError> {
    if h.Connected? then Success(h.data) else Failure(NotConnected)
  }

  /** `MVOHandler.get_tables`: the table names in document order. */
  function MvoGetTables(h: MvoHandler): (r: Result<seq<string>, HandlerError>)
    ensures r.Success? <==> MvoData(h).Success?
    ensures r.Success? ==> r.value == Keys(MvoData(h).value)
    ensures r.Failure? ==> r.error == NotConnected
  {
    match MvoData(h)
    case Failure(e) => Failure(e)
    case Success(data) => Success(Keys(data))
  }

  /** `MVOHandler.execute_query`: the query is ignored; the result is the
      records of the first table, or nothing when there are no tables. */
  function MvoExecuteQuery(h: MvoHandler, query: Option<string>): (r: Result<seq<Record>, HandlerError>)
    ensures r.Success? <==> MvoData(h).Success?
    ensures r.Failure? ==> r.error == NotConnected
    ensures r.Success? && MvoData(h).value == [] ==> r.value == []
    ensures r.Success? && MvoData(h).value != [] ==>
      && var data := MvoData(h).value;
      && Keys(data)[0] == data[0].0
      && r.value == data[0].1
  {
    match MvoGetTables(h)
    case Failure(e) => Failure(e)
    case Success(tables) =>
      if tables == [] then Success([])
      else Success(Get(MvoData(h).value, tables[0]).value)
  }

  lemma MvoExecuteQueryIgnoresQuery(h: MvoHandler, q1: Option<string>, q2: Option<string>)
    ensures MvoExecuteQuery(h, q1) == MvoExecuteQuery(h, q2)
  {
  }

  /** What `export_to_csv` writes: nothing at all, or a header line and one
      line per record. Quoting and encoding belong to the CSV writer. */
  datatype ExportPlan = NothingWritten | Csv(header: seq<string>, body: seq<seq<Value>>)

  /** One output line: the record's value under each header, `''` when absent. */
  function Project(rec: Record, header: seq<string>): (line: seq<Value>)
    ensures |line| == |header|
    ensures forall j :: 0 <= j < |header| ==> line[j] == Get(rec, header[j]).GetOr(Str(""))
  {
    seq(|header|, j requires 0 <= j < |header| => Get(rec, header[j]).GetOr(Str("")))
  }

  /** `MVOHandler.export_to_csv`: fails for an unknown table, writes nothing
      for an empty one, and otherwise projects every record onto the first
      record's keys. */
  function MvoExportToCsv(h: MvoHandler, table: string): (r: Result<ExportPlan, HandlerError>)
    ensures MvoData(h).Failure? ==> r == Failure(NotConnected)
    ensures MvoData(h).Success? && table !in Keys(MvoData(h).value) ==> r == Failure(TableNotFound(table))
    ensures MvoData(h).Success? && table in Keys(MvoData(h).value) ==>
      && r.Success?
      && var records := Get(MvoData(h).value, table).value;
      && (records == [] <==> r.value == NothingWritten)
      && (records != [] ==>
            && r.value.header == Keys(records[0])
            && |r.value.body| == |records|
            && (forall i :: 0 <= i < |records| ==> |r.value.body[i]| == |r.value.header|)
            && forall i, j :: 0 <= i < |records| && 0 <= j < |r.value.header| ==>
                 r.value.body[i][j] == Get(records[i], r.value.header[j]).GetOr(Str("")))
  {
    match MvoData(h)
    case Failure(e) => Failure(e)
    case Success(data) =>
      if table !in Keys(data) then Failure(TableNotFound(table))
      else
        var records := Get(data, table).value;
        if records == [] then Success(NothingWritten)
        else
          var header := Keys(records[0]);
          Success(Csv(header, seq(|records|, i requires 0 <= i < |records| => Project(records[i], header))))
  }

  /** `MVOHandler.close`: the held connection forgets its data; closing again
      changes nothing. */
  function MvoClose(h: MvoHandler): (r: MvoHandler)
    ensures MvoData(r).Failure?
    ensures h.NeverConnected? ==> r == h
    ensures !h.NeverConnected? ==> r == Closed
  {
    if h.NeverConnected? then h else Closed
  }

  lemma MvoCloseIdempotent(h: MvoHandler)
    ensures MvoClose(MvoClose(h)) == MvoClose(h)
  {
  }

  /** After `close`, every data operation fails with `NotConnected`. */
  lemma MvoClosedRejectsOperations(h: MvoHandler, query: Option<string>, table: string)
    ensures MvoGetTables(MvoClose(h)) == Failure(NotConnected)
    ensures MvoExecuteQuery(MvoClose(h), query) == Failure(NotConnected)
    ensures MvoExportToCsv(MvoClose(h), table) == Failure(NotConnected)
  {
  }

  // ---------------------------------------------------------------------------
  // Row conversion shared by the Access handler and the CSV round trip

  /** `dict(zip(columns, row))`. */
  function ZipRow(columns: seq<string>, row: seq<Value>): (r: Record)
    ensures |r| <= |columns| && |r| <= |row|
  {
    FromPairs(Zip(columns, row))
  }

  /** A column is a key of the zipped row exactly when it occurs among the
      first `min(|columns|, |row|)` columns, and its value is the one at its
      last such occurrence. */
  lemma ZipRowLookup(columns: seq<string>, row: seq<Value>, k: string)
    ensures var n := if |columns| <= |row| then |columns| else |row|;
      && (Get(ZipRow(columns, row), k).None? <==> forall i :: 0 <= i < n ==> columns[i] != k)
      && forall i :: 0 <= i < n && columns[i] == k && (forall j :: i < j < n ==> columns[j] != k) ==>
           Get(ZipRow(columns, row), k) == Some(row[i])
  {
    FromPairsLookup(Zip(columns, row), k);
  }

  /** `[dict(zip(columns, row)) for row in rows]`. */
  function ZipRows(columns: seq<string>, rows: seq<seq<Value>>): (r: seq<Record>)
    ensures |r| == |rows|
    ensures forall i :: 0 <= i < |rows| ==> r[i] == ZipRow(columns, rows[i])
  {
    seq(|rows|, i requires 0 <= i < |rows| => ZipRow(columns, rows[i]))
  }

  /** With distinct column names, a zipped row keeps the columns in order up
      to the shorter of the two lists, each with its own value. */
  lemma ZipRowDistinct(columns: seq<string>, row: seq<Value>)
    requires forall i, j :: 0 <= i < j < |columns| ==> columns[i] != columns[j]
    ensures var n := if |columns| <= |row| then |columns| else |row|;
      && Keys(ZipRow(columns, row)) == columns[..n]
      && forall j :: 0 <= j < n ==> Get(ZipRow(columns, row), columns[j]) == Some(row[j])
  {
    var n := if |columns| <= |row| then |columns| else |row|;
    var pairs := Zip(columns, row);
    assert DistinctKeys(pairs);
    FromPairsDistinct(pairs);
    var d: Record := pairs;
    assert Keys(d) == columns[..n];
    forall j | 0 <= j < n
      ensures Get(d, columns[j]) == Some(row[j])
    {
      assert d[j] == (columns[j], row[j]);
    }
  }

  /** Projecting a record onto its own keys and zipping the line back with
      them rebuilds the record. */
  lemma ProjectZipRoundTrip(rec: Record)
    ensures ZipRow(Keys(rec), Project(rec, Keys(rec))) == rec
  {
    var header := Keys(rec);
    var line := Project(rec, header);
    var pairs := Zip(header, line);
    assert forall j :: 0 <= j < |rec| ==> line[j] == rec[j].1;
    assert pairs == rec;
    FromPairsDistinct(pairs);
  }

  /** Reading the exported CSV back (header zipped with each line) yields
      the table's records, whenever every record has the first record's keys
      in the same order; for the first table that is exactly what
      `execute_query` returns. */
  lemma {:induction false} ExportRoundTrip(h: MvoHandler, table: string)
    requires MvoData(h).Success? && table in Keys(MvoData(h).value)
    requires var records := Get(MvoData(h).value, table).value;
      records != [] && forall i :: 0 <= i < |records| ==> Keys(records[i]) == Keys(records[0])
    ensures MvoExportToCsv(h, table).Success? && MvoExportToCsv(h, table).value.Csv?
    ensures var plan := MvoExportToCsv(h, table).value;
      ZipRows(plan.header, plan.body) == Get(MvoData(h).value, table).value
    ensures table == MvoData(h).value[0].0 ==>
      var plan := MvoExportToCsv(h, table).value;
      MvoExecuteQuery(h, None) == Success(ZipRows(plan.header, plan.body))
  {
    var data := MvoData(h).value;
    var records := Get(data, table).value;
    var plan := MvoExportToCsv(h, table).value;
    var back := ZipRows(plan.header, plan.body);
    forall i | 0 <= i < |records|
      ensures back[i] == records[i]
    {
      assert plan.body[i] == Project(records[i], Keys(records[i]));
      ProjectZipRoundTrip(records[i]);
    }
    if table == data[0].0 {
      assert Get(data, table) == Some(data[0].1);
    }
  }

  // ---------------------------------------------------------------------------
  // DBaseHandler and AccessHandler

  /** `DBaseHandler.get_tables`: one name, the file's basename without its
      extension. */
  function DBaseGetTables(path: string): (r: seq<string>)
    ensures |r| == 1
    ensures '/' !in r[0]
    ensures exists ext :: Basename(path) == r[0] + ext && (ext == [] || (ext[0] == '.' && '.' !in ext[1..]))
    ensures var b := Basename(path);
      if '.' in b && !AllDots(b[..LastIndexOf(b, '.')]) then r[0] == b[..LastIndexOf(b, '.')]
      else r[0] == b
  {
    var split := SplitExt(Basename(path));
    [split.0]
  }

  /** The dBase table of `dir/stem.ext` is called `stem`. */
  lemma DBaseTableNameOfPath(dir: string, stem: string, ext: string)
    requires '/' !in stem && '/' !in ext && '.' !in ext
    requires !AllDots(stem)
    ensures DBaseGetTables(dir + "/" + stem + "." + ext) == [stem]
  {
    assert dir + "/" + stem + "." + ext == dir + "/" + (stem + "." + ext);
    SplitExtRoundTrip(stem, ext);
    BasenameOfJoin(dir, stem + "." + ext);
  }

  /** What `AccessHandler.execute_query` runs: the given query, or when it is
      empty a select of the first table, or nothing when there are no tables. */
  datatype AccessPlan = NoTables | Run(sql: string)

  function AccessQueryPlan(query: Option<string>, tables: seq<string>): (r: AccessPlan)
    ensures query.Some? && query.value != "" ==> r == Run(query.value)
    ensures (query.None? || query.value == "") && tables == [] ==> r == NoTables
    ensures (query.None? || query.value == "") && tables != [] ==>
      r == Run("SELECT * FROM [" + tables[0] + "]")
  {
    if query.Some? && query.value != "" then Run(query.value)
    else if tables == [] then NoTables
    else Run("SELECT * FROM [" + tables[0] + "]")
  }

  /** What the driver produced for a statement: column names and rows, or an error. */
  datatype DriverResult = DriverFailed(message: string) | Fetched(columns: seq<string>, rows: seq<seq<Value>>)

  /** `AccessHandler.execute_query`, given the driver's table list and its
      answer to each statement. */
  function AccessExecuteQuery(query: Option<string>, tables: seq<string>, run: string -> DriverResult)
    : (r: Result<seq<Record>, HandlerError>)
    ensures AccessQueryPlan(query, tables) == NoTables ==> r == Success([])
    ensures AccessQueryPlan(query, tables).Run? ==>
      match run(AccessQueryPlan(query, tables).sql)
      case DriverFailed(m) => r == Failure(DriverError(m))
      case Fetched(columns, rows) =>
        r.Success? && |r.value| == |rows| &&
        forall i :: 0 <= i < |rows| ==> r.value[i] == ZipRow(columns, rows[i])
  {
    match AccessQueryPlan(query, tables)
    case NoTables => Success([])
    case Run(sql) =>
      match run(sql)
      case DriverFailed(m) => Failure(DriverError(m))
      case Fetched(columns, rows) => Success(ZipRows(columns, rows))
  }
}

=== FILE: mvo_db.dfy ===
/** The embedded MVO engine (mvo_db.py): a whole-file document of tables held
    in memory, a connection that caches one cursor, and a cursor that accepts
    a single query shape, `select * from <table>`, and serves the selected
    table's rows through `fetchall` and `fetchone`. */
module MvoDb {
  import opened Wrappers
  import opened Text
  import opened Dicts
  import opened Values

  /** One stored row: values aligned with the table's column list. */
  type Row = seq<Value>

  /** A table object of the document, `{"columns": [...], "rows": [[...], ...]}`. */
  datatype Table = Table(columns: seq<string>, rows: seq<Row>)

  /** The parsed file: table name to table, in the file's order. */
  type Document = Dict<Table>

  datatype MvoError =
    /** MVOError "Invalid MVO database format": the file is not valid JSON. */
    | InvalidFormat
    /** MVOError "Error reading MVO database: <reason>": the file could not be read. */
    | ReadFailure(reason: string)
    /** ValueError "Only 'SELECT * FROM table' queries are supported for MVO databases". */
    | UnsupportedQuery
    /** MVOError "Table '<name>' not found in MVO database". */
    | TableNotFound(name: string)
    /** ValueError "No query has been executed yet". */
    | NoQueryExecuted
    /** The data was cleared by `close`; the source fails on `None` with a TypeError or AttributeError. */
    | NoData
    /** An exception `_load_mvo_file` does not catch (a `UnicodeDecodeError`,
        say), propagated as raised. */
    | Escaped(message: string)

  /** What reading and decoding the file produced; the decoding itself is not modelled. */
  datatype LoadOutcome<D> = Parsed(doc: D) | DecodeFailed | ReadFailed(reason: string) | Raised(message: string)

  /** `_load_mvo_file`: the decoded document, or the error the failure maps to. */
  function Load<D>(o: LoadOutcome<D>): (r: Result<D, MvoError>)
    ensures r.Success? <==> o.Parsed?
    ensures o.Parsed? ==> r.value == o.doc
    ensures o.DecodeFailed? ==> r.error == InvalidFormat
    ensures o.ReadFailed? ==> r.error == ReadFailure(o.reason)
    ensures o.Raised? ==> r.error == Escaped(o.message)
  {
    match o
    case Parsed(doc) => Success(doc)
    case DecodeFailed => Failure(InvalidFormat)
    case ReadFailed(reason) => Failure(ReadFailure(reason))
    case Raised(message) => Failure(Escaped(message))
  }

  /** One DB-API description entry. Only the column name is modelled: the
      other six slots of the source's 7-tuple are always `None`. */
  datatype ColumnInfo = ColumnInfo(name: string)

  function Describe(columns: seq<string>): (d: seq<ColumnInfo>)
    ensures |d| == |columns|
    ensures forall i :: 0 <= i < |d| ==> d[i].name == columns[i]
  {
    seq(|columns|, i requires 0 <= i < |columns| => ColumnInfo(columns[i]))
  }

  datatype Cursor = Cursor(
    data: Option<Document>,
    currentTable: Option<string>,
    currentRows: Option<seq<Row>>,
    description: Option<seq<ColumnInfo>>,
    rowIndex: nat)

  /** A cursor that has not executed anything yet: it reads `data`, and
      fetching from it fails until a query has run. */
  function NewCursor(data: Option<Document>): (c: Cursor)
    ensures c.data == data && Consistent(c)
    ensures FetchAll(c).result == Failure(NoQueryExecuted)
    ensures FetchOne(c).result == Failure(NoQueryExecuted)
  {
    Cursor(data, None, None, None, 0)
  }

  /** The cursor state every operation keeps: either nothing is selected, or
      the rows and description are those of the selected table and the read
      position lies within the rows. */
  ghost predicate Consistent(c: Cursor) {
    match c.currentRows
    case None =>
      c.currentTable.None? && c.description.None? && c.rowIndex == 0
    case Some(rows) =>
      && c.data.Some?
      && c.currentTable.Some?
      && c.currentTable.value in Keys(c.data.value)
      && var t := Get(c.data.value, c.currentTable.value).value;
      && rows == t.rows
      && c.description == Some(Describe(t.columns))
      && c.rowIndex <= |rows|
  }

  lemma NewCursorConsistent(data: Option<Document>)
    ensures Consistent(NewCursor(data))
  {
  }

  /** The only accepted query prefix, compared against the lower-cased query. */
  const SelectPrefix: string := "select * from "

  /** Characters trimmed from both ends of the table name. */
  const QuoteChars: set<char> := {'"', ' ', '\''}

  /** The query has the one accepted shape: no leading blanks, any letter case. */
  predicate IsSelectAll(query: string): (b: bool)
    ensures b <==> |query| >= |SelectPrefix| && forall i :: 0 <= i < |SelectPrefix| ==> LowerChar(query[i]) == SelectPrefix[i]
  {
    PrefixChars(Lower(query), SelectPrefix);
    StartsWith(Lower(query), SelectPrefix)
  }

  /** The text after the 14-character prefix, with every leading and
      trailing quote and space removed; quotes need not be balanced. */
  function TableNameOf(query: string): (name: string)
    requires IsSelectAll(query)
    ensures |query| >= |SelectPrefix|
    ensures exists pre, post ::
      query[|SelectPrefix|..] == pre + name + post && AllIn(pre, QuoteChars) && AllIn(post, QuoteChars)
    ensures name == [] || (name[0] !in QuoteChars && name[|name| - 1] !in QuoteChars)
  {
    Strip(query[|SelectPrefix|..], QuoteChars)
  }

  /** A cursor operation: the cursor afterwards and what the call returned or raised. */
  datatype Step<T> = Step(cursor: Cursor, result: Result<T, MvoError>)

  /** `MVOCursor.execute`. */
  function Execute(c: Cursor, query: string): (r: Step<()>)
    ensures r.result.Failure? ==> r.cursor == c
    ensures !IsSelectAll(query) ==> r.result == Failure(UnsupportedQuery)
    ensures IsSelectAll(query) && c.data.None? ==> r.result == Failure(NoData)
    ensures IsSelectAll(query) && c.data.Some? && TableNameOf(query) !in Keys(c.data.value) ==>
      r.result == Failure(TableNotFound(TableNameOf(query)))
    ensures IsSelectAll(query) && c.data.Some? && TableNameOf(query) in Keys(c.data.value) ==>
      && r.result.Success?
      && var name := TableNameOf(query);
      && var t := Get(c.data.value, name).value;
      && r.cursor.data == c.data
      && r.cursor.currentTable == Some(name)
      && r.cursor.currentRows == Some(t.rows)
      && r.cursor.description.Some?
      && |r.cursor.description.value| == |t.columns|
      && (forall i :: 0 <= i < |t.columns| ==> r.cursor.description.value[i].name == t.columns[i])
      && r.cursor.rowIndex == 0
    ensures r.result.Success? ==> r.cursor.currentRows.Some? && r.cursor.rowIndex == 0
    ensures r.result.Success? ==> Consistent(r.cursor)
  {
    if !IsSelectAll(query) then Step(c, Failure(UnsupportedQuery))
    else
      var name := TableNameOf(query);
      if c.data.None? then Step(c, Failure(NoData))
      else if name !in Keys(c.data.value) then Step(c, Failure(TableNotFound(name)))
      else
        var t := Get(c.data.value, name).value;
        Step(Cursor(c.data, Some(name), Some(t.rows), Some(Describe(t.columns)), 0), Success(()))
  }

  /** `MVOCursor.fetchall`: every row of the selected table, whatever the read position. */
  function FetchAll(c: Cursor): (r: Step<seq<Row>>)
    ensures r.cursor == c
    ensures r.result.Success? <==> c.currentRows.Some?
    ensures c.currentRows.Some? ==> r.result.value == c.currentRows.value
    ensures c.currentRows.None? ==> r.result.error == NoQueryExecuted
  {
    match c.currentRows
    case None => Step(c, Failure(NoQueryExecuted))
    case Some(rows) => Step(c, Success(rows))
  }

  /** `MVOCursor.fetchone`: the row at the read position, advancing it by one,
      or `None` once every row has been read. */
  function FetchOne(c: Cursor): (r: Step<Option<Row>>)
    ensures c.currentRows.None? ==> r == Step(c, Failure(NoQueryExecuted))
    ensures c.currentRows.Some? && c.rowIndex >= |c.currentRows.value| ==> r == Step(c, Success(None))
    ensures c.currentRows.Some? && c.rowIndex < |c.currentRows.value| ==>
      r == Step(c.(rowIndex := c.rowIndex + 1), Success(Some(c.currentRows.value[c.rowIndex])))
    ensures Consistent(c) ==> Consistent(r.cursor)
  {
    match c.currentRows
    case None => Step(c, Failure(NoQueryExecuted))
    case Some(rows) =>
      if c.rowIndex >= |rows| then Step(c, Success(None))
      else Step(c.(rowIndex := c.rowIndex + 1), Success(Some(rows[c.rowIndex])))
  }

  /** `n` successive `fetchone()` calls: the cursor afterwards and each call's result. */
  function FetchOneTimes(c: Cursor, n: nat): (r: (Cursor, seq<Result<Option<Row>, MvoError>>))
    decreases n
  {
    if n == 0 then (c, [])
    else
      var first := FetchOne(c);
      var rest := FetchOneTimes(first.cursor, n - 1);
      (rest.0, [first.result] + rest.1)
  }

  /** From read position `k`, `n` calls that stay within the rows return rows
      `k .. k + n - 1` in order and leave the position at `k + n`. */
  lemma {:induction false} FetchOneTimesReadsInOrder(c: Cursor, n: nat)
    requires c.currentRows.Some?
    requires c.rowIndex + n <= |c.currentRows.value|
    ensures FetchOneTimes(c, n).0 == c.(rowIndex := c.rowIndex + n)
    ensures |FetchOneTimes(c, n).1| == n
    ensures forall i :: 0 <= i < n ==>
      FetchOneTimes(c, n).1[i] == Success(Some(c.currentRows.value[c.rowIndex + i]))
    decreases n
  {
    if n > 0 {
      var next := c.(rowIndex := c.rowIndex + 1);
      assert FetchOne(c).cursor == next;
      FetchOneTimesReadsInOrder(next, n - 1);
      var results := FetchOneTimes(c, n).1;
      assert results == [FetchOne(c).result] + FetchOneTimes(next, n - 1).1;
      forall i | 0 <= i < n
        ensures results[i] == Success(Some(c.currentRows.value[c.rowIndex + i]))
      {
        if i > 0 {
          assert results[i] == FetchOneTimes(next, n - 1).1[i - 1];
        }
      }
    }
  }

  /** From read position 0, `fetchone` called once per row yields exactly the
      rows `fetchall` returns, in order, and every further call returns `None`
      without moving the read position. */
  lemma {:induction false} DrainFromStart(c: Cursor)
    requires c.currentRows.Some? && c.rowIndex == 0
    ensures FetchAll(c).result.Success?
    ensures var rows := FetchAll(c).result.value;
      && var drained := FetchOneTimes(c, |rows|);
      && |drained.1| == |rows|
      && (forall i :: 0 <= i < |rows| ==> drained.1[i] == Success(Some(rows[i])))
      && FetchOne(drained.0) == Step(drained.0, Success(None))
  {
    FetchOneTimesReadsInOrder(c, |c.currentRows.value|);
  }

  /** Right after a successful `execute`, draining the cursor with `fetchone`
      agrees with `fetchall`. */
  lemma FetchOneMatchesFetchAll(c: Cursor, query: string)
    requires Execute(c, query).result.Success?
    ensures var c1 := Execute(c, query).cursor;
      && FetchAll(c1).result.Success?
      && var rows := FetchAll(c1).result.value;
      && var drained := FetchOneTimes(c1, |rows|);
      && |drained.1| == |rows|
      && (forall i :: 0 <= i < |rows| ==> drained.1[i] == Success(Some(rows[i])))
      && FetchOne(drained.0) == Step(drained.0, Success(None))
  {
    DrainFromStart(Execute(c, query).cursor);
  }

  /** The grammar ignores letter case in the prefix. */
  lemma IsSelectAllIgnoresCase(query: string)
    ensures IsSelectAll(query) <==> IsSelectAll(Lower(query))
  {
    LowerIdempotent(query);
  }

  /** The grammar does not tolerate leading whitespace. */
  lemma LeadingSpaceRejected(pad: string, query: string)
    requires pad != [] && pad[0] in PythonWhitespace
    ensures !IsSelectAll(pad + query)
  {
    assert Lower(pad + query)[0] == LowerChar(pad[0]) == pad[0];
  }

  /** A query written as any letter-case variant of the prefix, optional
      quotes or spaces, and a name that neither starts nor ends with one
      names exactly that table. */
  lemma TableNameRoundTrip(prefix: string, open: string, name: string, close: string)
    requires Lower(prefix) == SelectPrefix
    requires AllIn(open, QuoteChars) && AllIn(close, QuoteChars)
    requires name == [] || (name[0] !in QuoteChars && name[|name| - 1] !in QuoteChars)
    ensures IsSelectAll(prefix + open + name + close)
    ensures TableNameOf(prefix + open + name + close) == name
  {
    var q := prefix + open + name + close;
    LowerConcat(prefix, open + name + close);
    assert q == prefix + (open + name + close);
    assert Lower(q)[..|SelectPrefix|] == Lower(prefix);
    assert q[|SelectPrefix|..] == open + name + close;
    StripUnique(open + name + close, open, name, close, QuoteChars);
  }

  /** Unbalanced quoting is stripped rather than rejected: a quote on one
      side only still yields the bare name. */
  lemma UnbalancedQuoteStripped(prefix: string, name: string)
    requires Lower(prefix) == SelectPrefix
    requires name == [] || (name[0] !in QuoteChars && name[|name| - 1] !in QuoteChars)
    ensures TableNameOf(prefix + "\"" + name) == name
    ensures TableNameOf(prefix + name + "'") == name
  {
    assert AllIn("\"", QuoteChars) && AllIn("'", QuoteChars) && AllIn([], QuoteChars);
    TableNameRoundTrip(prefix, "\"", name, []);
    EmptyConcat(prefix + "\"" + name);
    TableNameRoundTrip(prefix, [], name, "'");
    EmptyConcat(prefix);
  }

  /** A failed lookup leaves the cursor exactly as it was, including a
      previous selection and its read position. */
  lemma MissingTableKeepsSelection(c: Cursor, query: string)
    requires IsSelectAll(query) && c.data.Some?
    requires TableNameOf(query) !in Keys(c.data.value)
    ensures Execute(c, query) == Step(c, Failure(TableNotFound(TableNameOf(query))))
  {
  }

  /** `MVOConnection`: the loaded document (cleared by `close`) and the cached cursor. */
  datatype Connection = Connection(data: Option<Document>, cursor: Option<Cursor>)

  /** `MVOConnection(db_path)`: loads the file; nothing is cached yet. */
  function Open(o: LoadOutcome<Document>): (r: Result<Connection, MvoError>)
    ensures o.Parsed? ==> r == Success(Connection(Some(o.doc), None))
    ensures !o.Parsed? ==> r == Failure(Load(o).error)
  {
    match Load(o)
    case Success(doc) => Success(Connection(Some(doc), None))
    case Failure(e) => Failure(e)
  }

  /** `MVOConnection.cursor`: the cached cursor, created over the current data
      on the first call. */
  function GetCursor(conn: Connection): (r: (Connection, Cursor))
    ensures r.0.data == conn.data
    ensures r.0.cursor == Some(r.1)
    ensures conn.cursor.Some? ==> r == (conn, conn.cursor.value)
    ensures conn.cursor.None? ==> r.1 == NewCursor(conn.data)
  {
    match conn.cursor
    case Some(c) => (conn, c)
    case None =>
      var c := NewCursor(conn.data);
      (conn.(cursor := Some(c)), c)
  }

  /** Asking for the cursor again returns the same cursor and changes nothing. */
  lemma GetCursorStable(conn: Connection)
    ensures GetCursor(GetCursor(conn).0) == GetCursor(conn)
  {
  }

  /** The cached cursor, if any, reads the connection's current data and is
      itself consistent. */
  ghost predicate ConnectionConsistent(conn: Connection) {
    conn.cursor.Some? ==> conn.cursor.value.data == conn.data && Consistent(conn.cursor.value)
  }

  /** `conn.cursor().execute(query)`: the cached cursor is one object, so the
      selection it makes is what the next `cursor()` call hands out. */
  function CursorExecute(conn: Connection, query: string): (r: (Connection, Result<(), MvoError>))
    ensures r.0.data == conn.data && r.0.cursor.Some?
    ensures r.1.Failure? ==> r.0 == GetCursor(conn).0
    ensures r.1.Success? ==> r.0.cursor.value.currentRows.Some? && r.0.cursor.value.rowIndex == 0
    ensures ConnectionConsistent(conn) ==> ConnectionConsistent(r.0)
  {
    var (held, c) := GetCursor(conn);
    var step := Execute(c, query);
    (held.(cursor := Some(step.cursor)), step.result)
  }

  /** `conn.cursor().fetchall()`: reads the cached cursor without moving it. */
  function CursorFetchAll(conn: Connection): (r: (Connection, Result<seq<Row>, MvoError>))
    ensures r.0 == GetCursor(conn).0
    ensures r.1.Success? <==> GetCursor(conn).1.currentRows.Some?
    ensures r.1.Success? ==> r.1.value == GetCursor(conn).1.currentRows.value
  {
    var (held, c) := GetCursor(conn);
    var step := FetchAll(c);
    (held.(cursor := Some(step.cursor)), step.result)
  }

  /** `conn.cursor().fetchone()`: the read position moves on the cached cursor. */
  function CursorFetchOne(conn: Connection): (r: (Connection, Result<Option<Row>, MvoError>))
    ensures r.0.data == conn.data && r.0.cursor.Some?
    ensures r.1 == Success(None) || r.1.Failure? ==> r.0 == GetCursor(conn).0
    ensures var c := GetCursor(conn).1;
      c.currentRows.Some? && c.rowIndex < |c.currentRows.value| ==>
        && r.1 == Success(Some(c.currentRows.value[c.rowIndex]))
        && r.0.cursor.value == c.(rowIndex := c.rowIndex + 1)
    ensures var c := GetCursor(conn).1;
      c.currentRows.Some? && c.rowIndex >= |c.currentRows.value| ==> r.1 == Success(None)
    ensures GetCursor(conn).1.currentRows.None? ==> r.1 == Failure(NoQueryExecuted)
    ensures ConnectionConsistent(conn) ==> ConnectionConsistent(r.0)
  {
    var (held, c) := GetCursor(conn);
    var step := FetchOne(c);
    (held.(cursor := Some(step.cursor)), step.result)
  }

  /** `n` successive `conn.cursor().fetchone()` calls: the connection
      afterwards and each call's result. */
  function CursorFetchOneTimes(conn: Connection, n: nat): (r: (Connection, seq<Result<Option<Row>, MvoError>>))
    decreases n
  {
    if n == 0 then (conn, [])
    else
      var first := CursorFetchOne(conn);
      var rest := CursorFetchOneTimes(first.0, n - 1);
      (rest.0, [first.1] + rest.1)
  }

  /** Through the connection, `n` `fetchone` calls that stay within the
      selected rows return them in order from the cached read position, and
      leave the cached position `n` further on. */
  lemma {:induction false} CursorFetchOneTimesReadsInOrder(conn: Connection, n: nat)
    requires conn.cursor.Some? && conn.cursor.value.currentRows.Some?
    requires conn.cursor.value.rowIndex + n <= |conn.cursor.value.currentRows.value|
    ensures var c := conn.cursor.value;
      && CursorFetchOneTimes(conn, n).0 == conn.(cursor := Some(c.(rowIndex := c.rowIndex + n)))
      && |CursorFetchOneTimes(conn, n).1| == n
      && forall i :: 0 <= i < n ==>
           CursorFetchOneTimes(conn, n).1[i] == Success(Some(c.currentRows.value[c.rowIndex + i]))
    decreases n
  {
    if n > 0 {
      var c := conn.cursor.value;
      var next := conn.(cursor := Some(c.(rowIndex := c.rowIndex + 1)));
      assert CursorFetchOne(conn).0 == next;
      CursorFetchOneTimesReadsInOrder(next, n - 1);
      var results := CursorFetchOneTimes(conn, n).1;
      assert results == [CursorFetchOne(conn).1] + CursorFetchOneTimes(next, n - 1).1;
      forall i | 0 <= i < n
        ensures results[i] == Success(Some(c.currentRows.value[c.rowIndex + i]))
      {
        if i > 0 {
          assert results[i] == CursorFetchOneTimes(next, n - 1).1[i - 1];
        }
      }
    }
  }

  /** After a successful `execute` through the connection, one `fetchone`
      per row yields the selected table's rows in order, and the next call
      returns `None`. */
  lemma ExecuteThenDrain(conn: Connection, query: string)
    requires ConnectionConsistent(conn)
    requires CursorExecute(conn, query).1.Success?
    ensures IsSelectAll(query) && conn.data.Some? && TableNameOf(query) in Keys(conn.data.value)
    ensures var after := CursorExecute(conn, query).0;
      var rows := Get(conn.data.value, TableNameOf(query)).value.rows;
      && CursorFetchOneTimes(after, |rows|).1 == seq(|rows|, i requires 0 <= i < |rows| => Success(Some(rows[i])))
      && CursorFetchOne(CursorFetchOneTimes(after, |rows|).0).1 == Success(None)
  {
    var c := GetCursor(conn).1;
    assert c.data == conn.data;
    var step := Execute(c, query);
    assert step.result.Success?;
    var name := TableNameOf(query);
    var rows := Get(conn.data.value, name).value.rows;
    var after := CursorExecute(conn, query).0;
    assert after.cursor.value == step.cursor;
    assert step.cursor.currentRows == Some(rows) && step.cursor.rowIndex == 0;
    CursorFetchOneTimesReadsInOrder(after, |rows|);
    var drained := CursorFetchOneTimes(after, |rows|);
    assert drained.1 == seq(|rows|, i requires 0 <= i < |rows| => Success(Some(rows[i])));
    var last := drained.0.cursor.value;
    assert last.currentRows == Some(rows) && last.rowIndex == |rows|;
  }

  /** A query run through one `cursor()` call is seen by the next: after a
      successful `SELECT * FROM t` on a loaded table, `fetchall` on the
      connection's cursor returns that table's rows, and `fetchone` its first
      row, if it has one. */
  lemma {:induction false} ExecuteSeenByNextCursor(conn: Connection, query: string)
    requires ConnectionConsistent(conn) && conn.data.Some?
    requires IsSelectAll(query) && TableNameOf(query) in Keys(conn.data.value)
    ensures var (after, res) := CursorExecute(conn, query);
      && res == Success(())
      && GetCursor(after).1.currentTable == Some(TableNameOf(query))
      && CursorFetchAll(after).1 == Success(Get(conn.data.value, TableNameOf(query)).value.rows)
      && var rows := Get(conn.data.value, TableNameOf(query)).value.rows;
      && (rows != [] ==> CursorFetchOne(after).1 == Success(Some(rows[0])))
  {
    var (held, c) := GetCursor(conn);
    assert c.data == conn.data;
    var step := Execute(c, query);
    assert step.result == Success(());
  }

  /** `MVOConnection.close`: drops the data and the cached cursor. */
  function Close(conn: Connection): (r: Connection)
    ensures r.data.None? && r.cursor.None?
  {
    Connection(None, None)
  }

  lemma CloseIdempotent(conn: Connection)
    ensures Close(Close(conn)) == Close(conn)
  {
  }

  /** `MVOConnection.get_tables`: every table name of the document once, in file order. */
  function GetTables(conn: Connection): (r: Result<seq<string>, MvoError>)
    ensures r.Success? <==> conn.data.Some?
    ensures conn.data.None? ==> r.error == NoData
    ensures conn.data.Some? ==>
      && |r.value| == |conn.data.value|
      && (forall i :: 0 <= i < |r.value| ==> r.value[i] == conn.data.value[i].0)
      && (forall i, j :: 0 <= i < j < |r.value| ==> r.value[i] != r.value[j])
      && (forall t :: t in r.value <==> Get(conn.data.value, t).Some?)
  {
    match conn.data
    case None => Failure(NoData)
    case Some(doc) => Success(Keys(doc))
  }

  /** After loading a document, `get_tables` lists exactly its tables. */
  lemma OpenedTablesListed(doc: Document)
    ensures Open(Parsed(doc)).Success?
    ensures GetTables(Open(Parsed(doc)).value) == Success(Keys(doc))
  {
  }
}

=== FILE: mysql_plugin.dfy ===
/** The MySQL plugin (plugins/database_handlers/mysql_plugin.py): parsing of
    `key=value;key=value` connection strings with fixed defaults, the
    not-connected guards, and the classification of a query as row-returning
    (`SELECT`/`SHOW`) or as a statement that is committed and reports a row
    count. The driver enters as functions over an opaque connection type. */
module MySqlPlugin {
  import opened Wrappers
  import opened Text
  import opened Dicts
  import opened Values

  // ---------------------------------------------------------------------------
  // Connection strings

  /** The key of a `key=value` segment: the text before the first `=`, lower-cased. */
  function SegmentKey(seg: string): string
    requires '=' in seg
  {
    Lower(SplitFirst(seg, '=').0)
  }

  /** The value of a `key=value` segment: everything after the first `=`, verbatim. */
  function SegmentValue(seg: string): string
    requires '=' in seg
  {
    SplitFirst(seg, '=').1
  }

  /** Segment `seg` assigns key `k`. */
  predicate Assigns(seg: string, k: string) {
    '=' in seg && SegmentKey(seg) == k
  }

  /** The keys the loop stores: lower-case, without `=`, and like every value
      free of `;` when the segments are. */
  ghost predicate WellFormedParams(d: Dict<string>) {
    forall i :: 0 <= i < |d| ==>
      Lower(d[i].0) == d[i].0 && '=' !in d[i].0 && ';' !in d[i].0 && ';' !in d[i].1
  }

  lemma SegmentPartsClean(seg: string)
    requires '=' in seg && ';' !in seg
    ensures Lower(SegmentKey(seg)) == SegmentKey(seg)
    ensures '=' !in SegmentKey(seg) && ';' !in SegmentKey(seg) && ';' !in SegmentValue(seg)
  {
    var parts := SplitFirst(seg, '=');
    assert forall i :: 0 <= i < |parts.0| ==> parts.0[i] == seg[i];
    assert forall i :: 0 <= i < |parts.1| ==> parts.1[i] == seg[|parts.0| + 1 + i];
    LowerIdempotent(parts.0);
    LowerKeepsNonLetters(parts.0, '=');
    LowerKeepsNonLetters(parts.0, ';');
  }

  /** `conn_params` after the loop has gone through `segs`. */
  function Accumulate(segs: seq<string>): (d: Dict<string>)
    ensures (forall i :: 0 <= i < |segs| ==> ';' !in segs[i]) ==> WellFormedParams(d)
    decreases |segs|
  {
    if segs == [] then []
    else
      var d := Accumulate(segs[..|segs| - 1]);
      var last := segs[|segs| - 1];
      if '=' in last then
        var d' := Set(d, SegmentKey(last), SegmentValue(last));
        assert (forall i :: 0 <= i < |segs| ==> ';' !in segs[i]) ==> WellFormedParams(d') by {
          if forall i :: 0 <= i < |segs| ==> ';' !in segs[i] {
            assert forall i :: 0 <= i < |segs| - 1 ==> segs[..|segs| - 1][i] == segs[i];
            SegmentPartsClean(last);
            SetKeepsWellFormed(d, SegmentKey(last), SegmentValue(last));
          }
        }
        d'
      else
        assert forall i :: 0 <= i < |segs| - 1 ==> segs[..|segs| - 1][i] == segs[i];
        d
  }

  lemma SetKeepsWellFormed(d: Dict<string>, k: string, v: string)
    requires WellFormedParams(d)
    requires Lower(k) == k && '=' !in k && ';' !in k && ';' !in v
    ensures WellFormedParams(Set(d, k, v))
  {
    var r := Set(d, k, v);
    forall i | 0 <= i < |r|
      ensures Lower(r[i].0) == r[i].0 && '=' !in r[i].0 && ';' !in r[i].0 && ';' !in r[i].1
    {
      if r[i].0 != k {
        assert Get(r, r[i].0) == Get(d, r[i].0);
        var j := KeyIndex(d, r[i].0);
        assert d[j] == r[i];
      }
    }
  }

  /** The key/value pairs `connect` gathers from a connection string:
      segments split on `;`, those without `=` skipped, keys lower-cased,
      a later key replacing an earlier one. */
  function ParseConnectionString(s: string): (d: Dict<string>)
    ensures WellFormedParams(d)
  {
    Accumulate(Split(s, ';'))
  }

  /** The value the last segment assigning `k` gives it, if any segment does. */
  function LastAssignment(segs: seq<string>, k: string): Option<string>
    decreases |segs|
  {
    if segs == [] then None
    else
      match LastAssignment(segs[1..], k)
      case Some(v) => Some(v)
      case None => if Assigns(segs[0], k) then Some(SegmentValue(segs[0])) else None
  }

  lemma {:induction false} LastAssignmentAppend(segs: seq<string>, seg: string, k: string)
    ensures LastAssignment(segs + [seg], k) ==
      if Assigns(seg, k) then Some(SegmentValue(seg)) else LastAssignment(segs, k)
    decreases |segs|
  {
    if segs == [] {
      assert ([] + [seg])[1..] == [];
    } else {
      assert (segs + [seg])[1..] == segs[1..] + [seg];
      assert (segs + [seg])[0] == segs[0];
      LastAssignmentAppend(segs[1..], seg, k);
    }
  }

  /** `LastAssignment` names the value of the last assigning segment, and is
      `None` exactly when no segment assigns the key. */
  lemma {:induction false} LastAssignmentMeaning(segs: seq<string>, k: string)
    ensures LastAssignment(segs, k).None? <==> forall i :: 0 <= i < |segs| ==> !Assigns(segs[i], k)
    ensures LastAssignment(segs, k).Some? ==> exists i :: (0 <= i < |segs|
      && Assigns(segs[i], k)
      && SegmentValue(segs[i]) == LastAssignment(segs, k).value
      && forall j :: i < j < |segs| ==> !Assigns(segs[j], k))
    decreases |segs|
  {
    if segs != [] {
      var rest := segs[1..];
      LastAssignmentMeaning(rest, k);
      assert forall i :: 0 < i < |segs| ==> segs[i] == rest[i - 1];
      match LastAssignment(rest, k)
      case Some(v) =>
        var i :| 0 <= i < |rest| && Assigns(rest[i], k) && SegmentValue(rest[i]) == v
          && forall j :: i < j < |rest| ==> !Assigns(rest[j], k);
        assert Assigns(segs[i + 1], k) && SegmentValue(segs[i + 1]) == v;
        assert forall j :: i + 1 < j < |segs| ==> !Assigns(segs[j], k);
      case None =>
        if Assigns(segs[0], k) {
          assert forall j :: 0 < j < |segs| ==> !Assigns(segs[j], k);
        }
    }
  }

  /** Looking a key up in the gathered pairs gives the last assignment to it. */
  lemma {:induction false} AccumulateGet(segs: seq<string>, k: string)
    ensures Get(Accumulate(segs), k) == LastAssignment(segs, k)
    decreases |segs|
  {
    if segs != [] {
      var init := segs[..|segs| - 1];
      var last := segs[|segs| - 1];
      AccumulateGet(init, k);
      LastAssignmentAppend(init, last, k);
      assert init + [last] == segs;
    }
  }

  /** Looking a key up in the gathered pairs: found exactly when some segment
      assigns it, and then with the value the last such segment gives. */
  lemma {:induction false} AccumulateLookup(segs: seq<string>, k: string)
    ensures Get(Accumulate(segs), k).None? <==> forall i :: 0 <= i < |segs| ==> !Assigns(segs[i], k)
    ensures Get(Accumulate(segs), k).Some? ==> exists i :: (0 <= i < |segs|
      && Assigns(segs[i], k)
      && SegmentValue(segs[i]) == Get(Accumulate(segs), k).value
      && forall j :: i < j < |segs| ==> !Assigns(segs[j], k))
  {
    AccumulateGet(segs, k);
    LastAssignmentMeaning(segs, k);
  }

  /** A key is found in the parsed string exactly when some segment assigns
      it, and its value is the one the last such segment gives. */
  lemma {:induction false} ParseConnectionStringLookup(s: string, k: string)
    ensures var segs := Split(s, ';');
      && (Get(ParseConnectionString(s), k).None? <==> forall i :: 0 <= i < |segs| ==> !Assigns(segs[i], k))
      && (Get(ParseConnectionString(s), k).Some? ==> exists i :: (0 <= i < |segs|
            && Assigns(segs[i], k)
            && SegmentValue(segs[i]) == Get(ParseConnectionString(s), k).value
            && forall j :: i < j < |segs| ==> !Assigns(segs[j], k)))
  {
    AccumulateLookup(Split(s, ';'), k);
  }

  /** A trailing segment without `=` is ignored. */
  lemma JunkSegmentIgnored(s: string, junk: string)
    requires ';' !in junk && '=' !in junk
    ensures ParseConnectionString(s + [';'] + junk) == ParseConnectionString(s)
  {
    SplitAppend(s, ';', junk);
    assert (Split(s, ';') + [junk])[..|Split(s, ';')|] == Split(s, ';');
  }

  /** A trailing `key=value` segment sets that key (lower-cased) to the value,
      which may itself contain `=`, and leaves every other key alone. */
  lemma LaterKeyWins(s: string, key: string, value: string)
    requires ';' !in key && ';' !in value && '=' !in key
    ensures Get(ParseConnectionString(s + [';'] + key + ['='] + value), Lower(key)) == Some(value)
    ensures forall k :: k != Lower(key) ==>
      Get(ParseConnectionString(s + [';'] + key + ['='] + value), k) == Get(ParseConnectionString(s), k)
  {
    var seg := key + ['='] + value;
    assert ';' !in seg;
    assert s + [';'] + key + ['='] + value == s + [';'] + seg;
    SplitAppend(s, ';', seg);
    SplitFirstSeparated(key, '=', value);
    var segs := Split(s, ';');
    assert (segs + [seg])[..|segs|] == segs;
  }

  /** One `key=value` segment per pair of `d`, in order. */
  function Segments(d: Dict<string>): (segs: seq<string>)
    ensures |segs| == |d|
  {
    seq(|d|, i requires 0 <= i < |d| => d[i].0 + "=" + d[i].1)
  }

  /** The connection string listing the pairs of `d` as `key=value;...`. */
  function FormatConnectionString(d: Dict<string>): string {
    Join(Segments(d), ';')
  }

  lemma SegmentsSnoc(d: Dict<string>)
    requires d != []
    ensures DistinctKeys(d[..|d| - 1])
    ensures Segments(d) == Segments(d[..|d| - 1]) + [d[|d| - 1].0 + ['='] + d[|d| - 1].1]
  {
    var init: Dict<string> := d[..|d| - 1];
    assert forall i :: 0 <= i < |init| ==> init[i] == d[i];
  }

  /** Appending a segment for a new, clean key appends that pair. */
  lemma AccumulateNewPair(init: Dict<string>, k: string, v: string)
    requires Accumulate(Segments(init)) == init
    requires k !in Keys(init) && Lower(k) == k && '=' !in k
    ensures Accumulate(Segments(init) + [k + ['='] + v]) == init + [(k, v)]
  {
    var segs := Segments(init) + [k + ['='] + v];
    assert segs[..|segs| - 1] == Segments(init);
    SplitFirstSeparated(k, '=', v);
  }

  lemma {:induction false} AccumulateFormatted(d: Dict<string>)
    requires WellFormedParams(d)
    ensures Accumulate(Segments(d)) == d
    decreases |d|
  {
    if d != [] {
      SegmentsSnoc(d);
      var init: Dict<string> := d[..|d| - 1];
      var last := d[|d| - 1];
      assert WellFormedParams(init) by {
        assert forall i :: 0 <= i < |init| ==> init[i] == d[i];
      }
      AccumulateFormatted(init);
      assert last.0 !in Keys(init);
      AccumulateNewPair(init, last.0, last.1);
      assert init + [last] == d;
    }
  }

  /** Formatting well-formed pairs as a connection string and parsing it
      gives the same pairs back, in the same order. */
  lemma ParseFormatRoundTrip(d: Dict<string>)
    requires WellFormedParams(d)
    ensures ParseConnectionString(FormatConnectionString(d)) == d
  {
    var segs := Segments(d);
    if d == [] {
      assert Split("", ';') == [""];
      assert Accumulate([""]) == Accumulate([]);
    } else {
      forall i | 0 <= i < |segs| ensures ';' !in segs[i] {
        assert segs[i] == d[i].0 + ['='] + d[i].1;
      }
      SplitJoin(segs, ';');
      AccumulateFormatted(d);
    }
  }

  /** The arguments `connect` hands to the driver. */
  datatype ConnectArgs = ConnectArgs(host: string, user: string, password: string, database: Option<string>)

  /** The driver arguments for a parsed string: host, user and password
      default to `localhost`, `root`, `root`; the database stays absent. */
  function ConnectArgsOf(params: Dict<string>): (a: ConnectArgs)
    ensures a.host == Get(params, "host").GetOr("localhost")
    ensures a.user == Get(params, "user").GetOr("root")
    ensures a.password == Get(params, "password").GetOr("root")
    ensures a.database == Get(params, "database")
  {
    ConnectArgs(
      Get(params, "host").GetOr("localhost"),
      Get(params, "user").GetOr("root"),
      Get(params, "password").GetOr("root"),
      Get(params, "database"))
  }

  /** From connection string to driver arguments: each argument is the last
      assignment to its key, or its default. */
  lemma ConnectArgsOfString(s: string)
    ensures var segs := Split(s, ';');
      var a := ConnectArgsOf(ParseConnectionString(s));
      && a.host == LastAssignment(segs, "host").GetOr("localhost")
      && a.user == LastAssignment(segs, "user").GetOr("root")
      && a.password == LastAssignment(segs, "password").GetOr("root")
      && a.database == LastAssignment(segs, "database")
  {
    var segs := Split(s, ';');
    AccumulateGet(segs, "host");
    AccumulateGet(segs, "user");
    AccumulateGet(segs, "password");
    AccumulateGet(segs, "database");
  }

  /** A string with no `=` at all connects with every default. */
  lemma DefaultsWithoutAssignments(s: string)
    requires '=' !in s
    ensures ConnectArgsOf(ParseConnectionString(s)) == ConnectArgs("localhost", "root", "root", None)
  {
    var segs := Split(s, ';');
    forall i | 0 <= i < |segs| ensures '=' !in segs[i] {
      JoinMemberIn(segs, ';', i);
    }
    ConnectArgsOfString(s);
    LastAssignmentMeaning(segs, "host");
    LastAssignmentMeaning(segs, "user");
    LastAssignmentMeaning(segs, "password");
    LastAssignmentMeaning(segs, "database");
  }

  /** Every character of a piece occurs in the joined string. */
  lemma {:induction false} JoinMemberIn(parts: seq<string>, sep: char, i: int)
    requires 0 <= i < |parts|
    ensures forall c :: c in parts[i] ==> c in Join(parts, sep)
    decreases |parts|
  {
    if |parts| > 1 {
      var j := Join(parts, sep);
      assert j == parts[0] + [sep] + Join(parts[1..], sep);
      if i == 0 {
        assert forall k :: 0 <= k < |parts[0]| ==> j[k] == parts[0][k];
      } else {
        JoinMemberIn(parts[1..], sep, i - 1);
        var tail := Join(parts[1..], sep);
        assert forall k :: 0 <= k < |tail| ==> j[|parts[0]| + 1 + k] == tail[k];
      }
    }
  }

  // ---------------------------------------------------------------------------
  // Plugin state and queries

  /** `MySQLPlugin.connection`: the open driver connection, if any. */
  datatype Plugin<C> = Plugin(connection: Option<C>)

  /** `MySQLPlugin.connect`: the driver is given the parsed arguments; on
      failure the call returns false and the previous connection stays. */
  function Connect<C>(p: Plugin<C>, cs: string, driver: ConnectArgs -> Option<C>): (r: (Plugin<C>, bool))
    ensures var attempt := driver(ConnectArgsOf(ParseConnectionString(cs)));
      && (r.1 <==> attempt.Some?)
      && (r.1 ==> r.0.connection == attempt)
      && (!r.1 ==> r.0 == p)
  {
    match driver(ConnectArgsOf(ParseConnectionString(cs)))
    case Some(conn) => (Plugin(Some(conn)), true)
    case None => (p, false)
  }

  /** `MySQLPlugin.disconnect`: afterwards there is no connection. */
  function Disconnect<C>(p: Plugin<C>): (r: Plugin<C>)
    ensures r.connection.None?
    ensures p.connection.None? ==> r == p
  {
    Plugin(None)
  }

  lemma DisconnectIdempotent<C>(p: Plugin<C>)
    ensures Disconnect(Disconnect(p)) == Disconnect(p)
  {
  }

  /** After `disconnect`, the guards of both data operations fire: no tables
      and no result, whatever the driver would have answered. */
  lemma DisconnectedGuards<C>(p: Plugin<C>, showTables: C -> Option<seq<string>>, query: string, run: (C, string) -> Execution)
    ensures GetTables(Disconnect(p), showTables) == []
    ensures ExecuteQuery(Disconnect(p), query, run).None?
  {
  }

  /** `MySQLPlugin.get_tables`: the driver's `SHOW TABLES` answer; an empty
      list without a connection or when the driver fails. */
  function GetTables<C>(p: Plugin<C>, showTables: C -> Option<seq<string>>): (r: seq<string>)
    ensures p.connection.None? ==> r == []
    ensures p.connection.Some? ==> r == showTables(p.connection.value).GetOr([])
  {
    match p.connection
    case None => []
    case Some(conn) => showTables(conn).GetOr([])
  }

  /** The query returns rows: its stripped, upper-cased text starts with
      `SELECT` or `SHOW`. */
  predicate ReturnsRows(query: string): (b: bool)
    ensures var t := StripSpace(query);
      b <==> ((|t| >= 6 && forall i :: 0 <= i < 6 ==> UpperChar(t[i]) == "SELECT"[i]) ||
              (|t| >= 4 && forall i :: 0 <= i < 4 ==> UpperChar(t[i]) == "SHOW"[i]))
  {
    var t := Upper(StripSpace(query));
    PrefixChars(t, "SELECT");
    PrefixChars(t, "SHOW");
    StartsWith(t, "SELECT") || StartsWith(t, "SHOW")
  }

  /** How the driver ran a statement: it raised, or it ran and offers its
      rows, its row count and whether a commit would succeed. */
  datatype Execution = ExecutionFailed | Executed(rows: seq<Record>, rowCount: int, commitSucceeds: bool)

  /** What `execute_query` returns when it does not return `None`. */
  datatype Reply = Rows(rows: seq<Record>) | RowCount(count: int)

  /** `MySQLPlugin.execute_query`: `None` without a connection or on any
      driver error; rows for a row-returning query; otherwise the commit's
      row count. */
  function ExecuteQuery<C>(p: Plugin<C>, query: string, run: (C, string) -> Execution): (r: Option<Reply>)
    ensures p.connection.None? ==> r.None?
    ensures p.connection.Some? ==>
      match run(p.connection.value, query)
      case ExecutionFailed => r.None?
      case Executed(rows, count, commits) =>
        && (ReturnsRows(query) ==> r == Some(Rows(rows)))
        && (!ReturnsRows(query) && commits ==> r == Some(RowCount(count)))
        && (!ReturnsRows(query) && !commits ==> r.None?)
  {
    match p.connection
    case None => None
    case Some(conn) =>
      match run(conn, query)
      case ExecutionFailed => None
      case Executed(rows, count, commits) =>
        if ReturnsRows(query) then Some(Rows(rows))
        else if commits then Some(RowCount(count))
        else None
  }

  /** Surrounding whitespace does not change the classification. */
  lemma ReturnsRowsIgnoresPadding(a: string, query: string, b: string)
    requires AllIn(a, PythonWhitespace) && AllIn(b, PythonWhitespace)
    ensures ReturnsRows(a + query + b) == ReturnsRows(query)
  {
    StripIgnoresPadding(a, query, b, PythonWhitespace);
  }

  /** Both keywords begin and end with a letter. */
  lemma KeywordEdges(keyword: string)
    requires Upper(keyword) == "SELECT" || Upper(keyword) == "SHOW"
    ensures keyword != [] && keyword[0] !in PythonWhitespace && keyword[|keyword| - 1] !in PythonWhitespace
  {
    var n := |keyword|;
    assert n > 0 && Upper(keyword)[0] == 'S';
    assert Upper(keyword)[n - 1] == 'T' || Upper(keyword)[n - 1] == 'W';
    LetterNotSpace(keyword[0]);
    LetterNotSpace(keyword[n - 1]);
  }

  /** Any letter case of `SELECT` or `SHOW` after optional whitespace makes
      a row-returning query, whatever follows. */
  lemma KeywordReturnsRows(pad: string, keyword: string, rest: string)
    requires AllIn(pad, PythonWhitespace)
    requires Upper(keyword) == "SELECT" || Upper(keyword) == "SHOW"
    ensures ReturnsRows(pad + keyword + rest)
  {
    var s := keyword + rest;
    EmptyConcat(pad + s);
    assert pad + keyword + rest == pad + s;
    StripIgnoresPadding(pad, s, [], PythonWhitespace);
    KeywordEdges(keyword);
    var n := |keyword|;
    assert s[0] == keyword[0] && s[n - 1] == keyword[n - 1];
    StripKeepsLeadingWord(s, n, PythonWhitespace);
    assert s[..n] == keyword;
    UpperStartsWith(Strip(s, PythonWhitespace), keyword);
  }

  lemma NotKeywordStart(t: string)
    requires t != [] && t[0] != 'S'
    ensures !StartsWith(t, "SELECT") && !StartsWith(t, "SHOW")
  {
    assert "SELECT"[0] == 'S' && "SHOW"[0] == 'S';
  }

  /** A statement whose first non-blank letter is not `S` (`UPDATE`,
      `INSERT`, `DELETE`, `CREATE`, ...) does not return rows, so it is
      committed and reports its row count. */
  lemma OtherStatementsCommitted(pad: string, query: string)
    requires AllIn(pad, PythonWhitespace)
    requires query != [] && query[0] !in PythonWhitespace && UpperChar(query[0]) != 'S'
    ensures !ReturnsRows(pad + query)
  {
    StripStartsAt(pad, query, PythonWhitespace);
    var t := Upper(StripSpace(pad + query));
    assert t[0] == UpperChar(query[0]);
    NotKeywordStart(t);
  }
}

=== FILE: paths.dfy ===
/** POSIX `os.path.basename` and `os.path.splitext`, as the dBase handler uses
    them to name its single table. */
module Paths {
  import opened Text

  /** True when every character of `s` is a dot (also when `s` is empty). */
  predicate AllDots(s: string) {
    forall i :: 0 <= i < |s| ==> s[i] == '.'
  }

  /** Position of the last `c` in `s`. */
  function LastIndexOf(s: string, c: char): (i: nat)
    requires c in s
    ensures i < |s| && s[i] == c
    ensures c !in s[i + 1..]
  {
    if s[|s| - 1] == c then |s| - 1
    else
      var init := s[..|s| - 1];
      assert c in init by {
        var k :| 0 <= k < |s| && s[k] == c;
        assert init[k] == c;
      }
      var i := LastIndexOf(init, c);
      assert s[i + 1..] == init[i + 1..] + [s[|s| - 1]];
      i
  }

  /** `os.path.basename(p)`: everything after the last `/`. */
  function Basename(p: string): (b: string)
    ensures '/' !in b
    ensures EndsWith(p, b)
    ensures b == p || p[|p| - |b| - 1] == '/'
  {
    if '/' !in p then p
    else
      var i := LastIndexOf(p, '/');
      p[i + 1..]
  }

  /** `os.path.splitext(name)` for a name without `/`: the extension starts at
      the last dot, provided something other than dots comes before it;
      otherwise there is no extension. */
  function SplitExt(name: string): (r: (string, string))
    requires '/' !in name
    ensures r.0 + r.1 == name
    ensures r.1 == [] <==> ('.' !in name || AllDots(name[..LastIndexOf(name, '.')]))
    ensures r.1 != [] ==> r.1[0] == '.' && '.' !in r.1[1..]
    ensures r.1 != [] ==> r.0 == name[..LastIndexOf(name, '.')]
  {
    if '.' !in name then (name, "")
    else
      var d := LastIndexOf(name, '.');
      if AllDots(name[..d]) then (name, "")
      else
        assert name[d..][1..] == name[d + 1..];
        (name[..d], name[d..])
  }

  /** A file name built from a stem and an extension is split back into them. */
  lemma {:induction false} SplitExtRoundTrip(stem: string, ext: string)
    requires '/' !in stem && '/' !in ext && '.' !in ext
    requires !AllDots(stem)
    ensures '/' !in stem + "." + ext
    ensures SplitExt(stem + "." + ext) == (stem, "." + ext)
  {
    var name := stem + "." + ext;
    assert name[|stem|] == '.';
    assert name[|stem| + 1..] == ext;
    assert forall k :: |stem| < k < |name| ==> name[k] == ext[k - |stem| - 1];
    var d := LastIndexOf(name, '.');
    assert d == |stem|;
    assert name[..d] == stem;
    assert name[d..] == "." + ext;
  }

  /** The basename of `dir/name` is `name`. */
  lemma BasenameOfJoin(dir: string, name: string)
    requires '/' !in name
    ensures Basename(dir + "/" + name) == name
  {
    var p := dir + "/" + name;
    assert p[|dir|] == '/';
    assert forall k :: |dir| < k < |p| ==> p[k] == name[k - |dir| - 1];
    var i := LastIndexOf(p, '/');
    assert p[|dir| + 1..] == name;
  }
}

=== FILE: text.dfy ===
/** The handful of Python `str` operations the access layer relies on:
    `lower`/`upper` (ASCII letters only), `startswith`/`endswith`, `strip`
    with and without an explicit character set, `split(sep)` and
    `split(sep, 1)`. */
module Text {

  function LowerChar(c: char): char {
    if 'A' <= c <= 'Z' then (c as int + 32) as char else c
  }

  function UpperChar(c: char): char {
    if 'a' <= c <= 'z' then (c as int - 32) as char else c
  }

  /** `s.lower()`, restricted to the ASCII letters. */
  function Lower(s: string): (r: string)
    ensures |r| == |s|
    ensures forall i :: 0 <= i < |s| ==> r[i] == LowerChar(s[i])
    ensures forall i :: 0 <= i < |r| ==> !('A' <= r[i] <= 'Z')
  {
    seq(|s|, i requires 0 <= i < |s| => LowerChar(s[i]))
  }

  /** `s.upper()`, restricted to the ASCII letters. */
  function Upper(s: string): (r: string)
    ensures |r| == |s|
    ensures forall i :: 0 <= i < |s| ==> r[i] == UpperChar(s[i])
    ensures forall i :: 0 <= i < |r| ==> !('a' <= r[i] <= 'z')
  {
    seq(|s|, i requires 0 <= i < |s| => UpperChar(s[i]))
  }

  lemma LowerConcat(a: string, b: string)
    ensures Lower(a + b) == Lower(a) + Lower(b)
  {
  }

  lemma LowerIdempotent(s: string)
    ensures Lower(Lower(s)) == Lower(s)
  {
    assert forall i :: 0 <= i < |s| ==> LowerChar(LowerChar(s[i])) == LowerChar(s[i]);
  }

  /** Lower-casing changes letters only: any other character occurs in
      `Lower(s)` exactly when it occurs in `s`. */
  lemma LowerKeepsNonLetters(s: string, c: char)
    requires !('A' <= c <= 'Z') && !('a' <= c <= 'z')
    ensures c in Lower(s) <==> c in s
  {
    if c in Lower(s) {
      var i :| 0 <= i < |s| && Lower(s)[i] == c;
      assert s[i] == c;
    }
    if c in s {
      var i :| 0 <= i < |s| && s[i] == c;
      assert Lower(s)[i] == c;
    }
  }

  lemma UpperConcat(a: string, b: string)
    ensures Upper(a + b) == Upper(a) + Upper(b)
  {
  }

  lemma EmptyConcat(s: string)
    ensures s + [] == s && [] + s == s
  {
  }

  /** `s.startswith(prefix)`. */
  predicate StartsWith(s: string, prefix: string): (b: bool)
    ensures b <==> exists rest :: s == prefix + rest
  {
    assert |prefix| <= |s| ==> s == s[..|prefix|] + s[|prefix|..];
    |prefix| <= |s| && s[..|prefix|] == prefix
  }

  /** A prefix test is a test character by character. */
  lemma PrefixChars(s: string, w: string)
    ensures StartsWith(s, w) <==> |w| <= |s| && forall i :: 0 <= i < |w| ==> s[i] == w[i]
  {
    if |w| <= |s| && forall i :: 0 <= i < |w| ==> s[i] == w[i] {
      assert s[..|w|] == w;
    }
  }

  /** Upper-casing keeps a prefix a prefix. */
  lemma UpperStartsWith(s: string, w: string)
    requires StartsWith(s, w)
    ensures StartsWith(Upper(s), Upper(w))
  {
    assert Upper(s)[..|w|] == Upper(s[..|w|]);
  }

  /** `s.endswith(suffix)`. */
  predicate EndsWith(s: string, suffix: string): (b: bool)
    ensures b <==> exists front :: s == front + suffix
  {
    assert |suffix| <= |s| ==> s == s[..|s| - |suffix|] + s[|s| - |suffix|..];
    |suffix| <= |s| && s[|s| - |suffix|..] == suffix
  }

  predicate AllIn(s: string, cs: set<char>) {
    forall i :: 0 <= i < |s| ==> s[i] in cs
  }

  /** The characters `str.strip()` removes when called without arguments:
      exactly those for which Python's `str.isspace()` holds. */
  const PythonWhitespace: set<char> :=
    {'\t', '\n', '\U{0B}', '\U{0C}', '\r', '\U{1C}', '\U{1D}', '\U{1E}', '\U{1F}', ' ',
     '\U{85}', '\U{A0}', '\U{1680}',
     '\U{2000}', '\U{2001}', '\U{2002}', '\U{2003}', '\U{2004}', '\U{2005}',
     '\U{2006}', '\U{2007}', '\U{2008}', '\U{2009}', '\U{200A}',
     '\U{2028}', '\U{2029}', '\U{202F}', '\U{205F}', '\U{3000}'}

  /** A character that upper-cases to an ASCII letter is not whitespace. */
  lemma LetterNotSpace(c: char)
    requires 'A' <= UpperChar(c) <= 'Z'
    ensures c !in PythonWhitespace
  {
    assert 'A' <= c <= 'Z' || 'a' <= c <= 'z';
  }

  /** Number of leading characters of `s` that belong to `cs`. */
  function LeadCount(s: string, cs: set<char>): (n: nat)
    ensures n <= |s|
    ensures AllIn(s[..n], cs)
    ensures n < |s| ==> s[n] !in cs
  {
    if s == [] || s[0] !in cs then 0
    else
      var m := LeadCount(s[1..], cs);
      assert s[..1 + m] == [s[0]] + s[1..][..m];
      1 + m
  }

  /** Number of trailing characters of `s` that belong to `cs`. */
  function TrailCount(s: string, cs: set<char>): (n: nat)
    ensures n <= |s|
    ensures AllIn(s[|s| - n..], cs)
    ensures n < |s| ==> s[|s| - n - 1] !in cs
  {
    if s == [] || s[|s| - 1] !in cs then 0
    else
      var init := s[..|s| - 1];
      var m := TrailCount(init, cs);
      assert s[|s| - (1 + m)..] == init[|init| - m..] + [s[|s| - 1]];
      1 + m
  }

  /** `s.strip(chars)`: the longest run of `s` left once every leading and
      trailing character from `cs` is removed. */
  function Strip(s: string, cs: set<char>): (r: string)
    ensures exists pre, post :: s == pre + r + post && AllIn(pre, cs) && AllIn(post, cs)
    ensures r == [] || (r[0] !in cs && r[|r| - 1] !in cs)
  {
    var lead := LeadCount(s, cs);
    if lead == |s| then
      assert s == s[..lead] + [] + [];
      assert AllIn([], cs);
      []
    else
      var hi := |s| - TrailCount(s, cs);
      assert forall k :: hi <= k < |s| ==> s[k] == s[hi..][k - hi];
      assert lead < hi;
      var pre, mid, post := s[..lead], s[lead..hi], s[hi..];
      assert s == pre + mid + post;
      assert mid[0] == s[lead] && mid[|mid| - 1] == s[hi - 1];
      mid
  }

  /** Positional reading of a decomposition `s == pre + r + post`. */
  lemma DecompositionFacts(s: string, pre: string, r: string, post: string, cs: set<char>)
    requires s == pre + r + post
    requires AllIn(pre, cs) && AllIn(post, cs)
    ensures |s| == |pre| + |r| + |post|
    ensures forall k :: 0 <= k < |pre| ==> s[k] in cs
    ensures forall k :: |pre| + |r| <= k < |s| ==> s[k] in cs
    ensures r == s[|pre|..|pre| + |r|]
    ensures r != [] ==> s[|pre|] == r[0] && s[|pre| + |r| - 1] == r[|r| - 1]
  {
    assert forall k :: 0 <= k < |pre| ==> s[k] == pre[k];
    assert forall k :: |pre| + |r| <= k < |s| ==> s[k] == post[k - |pre| - |r|];
  }

  /** `Strip` is the only trimming of `s` that leaves no removable character
      at either end. */
  lemma StripUnique(s: string, pre: string, r: string, post: string, cs: set<char>)
    requires s == pre + r + post
    requires AllIn(pre, cs) && AllIn(post, cs)
    requires r == [] || (r[0] !in cs && r[|r| - 1] !in cs)
    ensures Strip(s, cs) == r
  {
    var r' := Strip(s, cs);
    var pre', post' :| s == pre' + r' + post' && AllIn(pre', cs) && AllIn(post', cs);
    DecompositionFacts(s, pre, r, post, cs);
    DecompositionFacts(s, pre', r', post', cs);
  }

  lemma AllInConcat(a: string, b: string, cs: set<char>)
    requires AllIn(a, cs) && AllIn(b, cs)
    ensures AllIn(a + b, cs)
  {
    assert forall i :: |a| <= i < |a + b| ==> (a + b)[i] == b[i - |a|];
  }

  lemma Regroup(a: string, pre: string, r: string, post: string, b: string)
    ensures a + (pre + r + post) + b == (a + pre) + r + (post + b)
  {
  }

  /** Padding `s` with removable characters does not change what `Strip` keeps. */
  lemma StripIgnoresPadding(a: string, s: string, b: string, cs: set<char>)
    requires AllIn(a, cs) && AllIn(b, cs)
    ensures Strip(a + s + b, cs) == Strip(s, cs)
  {
    var r := Strip(s, cs);
    var pre, post :| s == pre + r + post && AllIn(pre, cs) && AllIn(post, cs);
    Regroup(a, pre, r, post, b);
    AllInConcat(a, pre, cs);
    AllInConcat(post, b, cs);
    StripUnique(a + s + b, a + pre, r, post + b, cs);
  }

  /** When the first and the `n`-th character are kept, `Strip` keeps the
      first `n` characters in front. */
  lemma StripKeepsLeadingWord(s: string, n: int, cs: set<char>)
    requires 0 < n <= |s| && s[0] !in cs && s[n - 1] !in cs
    ensures n <= |Strip(s, cs)| && Strip(s, cs)[..n] == s[..n]
  {
    assert LeadCount(s, cs) == 0;
    var hi := |s| - TrailCount(s, cs);
    assert forall k :: hi <= k < |s| ==> s[k] == s[hi..][k - hi];
    assert n <= hi;
    assert Strip(s, cs) == s[..hi];
  }

  /** After removable padding, a kept first character is where `Strip` starts. */
  lemma StripStartsAt(pad: string, s: string, cs: set<char>)
    requires AllIn(pad, cs)
    requires s != [] && s[0] !in cs
    ensures Strip(pad + s, cs) != [] && Strip(pad + s, cs)[0] == s[0]
  {
    EmptyConcat(pad + s);
    StripIgnoresPadding(pad, s, [], cs);
    StripKeepsLeadingWord(s, 1, cs);
  }

  /** `s.strip()` without arguments: leading and trailing whitespace removed. */
  function StripSpace(s: string): (r: string)
    ensures exists pre, post ::
      s == pre + r + post && AllIn(pre, PythonWhitespace) && AllIn(post, PythonWhitespace)
    ensures r == [] || (r[0] !in PythonWhitespace && r[|r| - 1] !in PythonWhitespace)
  {
    Strip(s, PythonWhitespace)
  }

  /** Position of the first `c` in `s`. */
  function IndexOf(s: string, c: char): (i: nat)
    requires c in s
    ensures i < |s| && s[i] == c && c !in s[..i]
  {
    if s[0] == c then 0
    else
      var j := IndexOf(s[1..], c);
      assert s[..1 + j] == [s[0]] + s[1..][..j];
      1 + j
  }

  lemma IndexOfSeparated(a: string, c: char, b: string)
    requires c !in a
    ensures c in a + [c] + b
    ensures IndexOf(a + [c] + b, c) == |a|
  {
    var s := a + [c] + b;
    assert s[|a|] == c;
    assert forall k :: 0 <= k < |a| ==> s[k] == a[k];
  }

  /** `sep.join(parts)`. */
  function Join(parts: seq<string>, sep: char): string {
    if parts == [] then ""
    else if |parts| == 1 then parts[0]
    else parts[0] + [sep] + Join(parts[1..], sep)
  }

  /** `s.split(sep)`: always at least one piece, none containing `sep`, and
      joining the pieces back gives `s`. */
  function Split(s: string, sep: char): (parts: seq<string>)
    ensures |parts| >= 1
    ensures forall i :: 0 <= i < |parts| ==> sep !in parts[i]
    ensures Join(parts, sep) == s
    decreases |s|
  {
    if sep !in s then [s]
    else
      var i := IndexOf(s, sep);
      var rest := Split(s[i + 1..], sep);
      assert ([s[..i]] + rest)[1..] == rest;
      assert s == s[..i] + [sep] + s[i + 1..];
      [s[..i]] + rest
  }

  /** Splitting a join of separator-free pieces gives the pieces back. */
  lemma {:induction false} SplitJoin(parts: seq<string>, sep: char)
    requires |parts| >= 1
    requires forall i :: 0 <= i < |parts| ==> sep !in parts[i]
    ensures Split(Join(parts, sep), sep) == parts
  {
    if |parts| > 1 {
      var rest := parts[1..];
      IndexOfSeparated(parts[0], sep, Join(rest, sep));
      var s := Join(parts, sep);
      assert s[..|parts[0]|] == parts[0];
      assert s[|parts[0]| + 1..] == Join(rest, sep);
      SplitJoin(rest, sep);
      assert [parts[0]] + rest == parts;
    }
  }

  /** Appending a separator and a separator-free tail adds exactly one piece. */
  lemma {:induction false} SplitAppend(a: string, sep: char, b: string)
    requires sep !in b
    ensures Split(a + [sep] + b, sep) == Split(a, sep) + [b]
    decreases |a|
  {
    var s := a + [sep] + b;
    if sep !in a {
      IndexOfSeparated(a, sep, b);
      assert s[..|a|] == a;
      assert s[|a| + 1..] == b;
    } else {
      var i := IndexOf(a, sep);
      assert s[i] == sep;
      assert s[..i] == a[..i];
      assert s[i + 1..] == a[i + 1..] + [sep] + b;
      SplitAppend(a[i + 1..], sep, b);
    }
  }

  /** `s.split(sep, 1)` when `sep` occurs in `s`: the text before the first
      `sep` and everything after it, which may contain further `sep`s. */
  function SplitFirst(s: string, sep: char): (r: (string, string))
    requires sep in s
    ensures sep !in r.0
    ensures r.0 + [sep] + r.1 == s
  {
    var i := IndexOf(s, sep);
    assert s == s[..i] + [sep] + s[i + 1..];
    (s[..i], s[i + 1..])
  }

  lemma SplitFirstSeparated(a: string, sep: char, b: string)
    requires sep !in a
    ensures sep in a + [sep] + b
    ensures SplitFirst(a + [sep] + b, sep) == (a, b)
  {
    IndexOfSeparated(a, sep, b);
    var s := a + [sep] + b;
    assert s[..|a|] == a;
    assert s[|a| + 1..] == b;
  }
}

=== FILE: values.dfy ===
/** The row model: scalar values as they come out of a parsed MVO document or a
    driver, and records (`dict` rows) keyed by column name. */
module Values {
  import opened Dicts

  /** A scalar cell. Floating-point values are not part of this model. */
  datatype Value = Null | Bool(b: bool) | Int(i: int) | Str(s: string)

  /** One result row as a column-name to value mapping, in column order. */
  type Record = Dict<Value>
}

=== FILE: wrappers.dfy ===
/** Failure-compatible wrappers used by every other module: `Option` for Python's
    `None`-or-value, `Result` for a value-or-exception, `Outcome` for an operation
    that returns nothing but may raise. */
module Wrappers {

  datatype Option<+T> = None | Some(value: T) {

    /** The wrapped value, or `default` when there is none (Python's `d.get(k, default)`). */
    function GetOr(default: T): T {
      match this
      case Some(v) => v
      case None => default
    }
  }

  datatype Result<+T, +E> = Success(value: T) | Failure(error: E) {

    predicate IsFailure() {
      Failure?
    }

    function PropagateFailure<U>(): Result<U, E>
      requires Failure?
    {
      Failure(error)
    }

    function Extract(): T
      requires Success?
    {
      value
    }
  }

  datatype Outcome<+E> = Pass | Fail(error: E)
}
